=== FILE: README.md ===
# Blocks-world planner core, modelled in Dafny

The planner takes a blocks world and searches for a sequence of arm actions
that reaches a goal. A blocks world is columns of object keys, an arm over
one column, and at most one held object. This project models the four pure
parts of that planner and proves properties of them:

- **`World`** (`world.dfy`) is the state.
  - The columns are bottom to top, the arm is a column index, and the held
    key is an `Option`.
  - A map gives every object's form, size and colour.
  - The key "floor" is a fixed pseudo-object with form, size and colour
    "floor".
- **`Interpreter`** (`interpreter.dfy`) holds the interpreter's pure rules:
  - locating keys (`find`, `findStackIndex`, `getAllRelevantKeys`);
  - the physical laws of placement (sizes, boxes, balls);
  - the seven spatial relations and the check of one relation over
    candidate keys;
  - the filtering of (object, target) pairs for a command;
  - attribute matching, and the text form of a goal literal.
- **`Heuristics`** (`heuristics.dfy`) holds the per-relation distance
  estimates that guide the search.
- **`AStar`** (`astar.dfy`) is the generic A\* search over a graph given by
  its outgoing-edge function. It has an open list, a closed set, the
  best-known parent of each node, g- and f-scores, and "infinity" for an
  unscored node.
- **`WorldGraph`** (`world_graph.dfy`) is the blocks world as a graph for
  that search. A node is a state plus the action that produced it. Its
  edges are the legal pick-up, drop, move-left and move-right moves, each
  of cost 1.

`common.dfy` holds `Option`, `Result` (the errors the code throws), `Abs`,
and `Score`, which is a natural number or infinity.

JavaScript `throw`s with a message become `Result.Err` with the same
message. Examples are "Unkown size: …" (spelled as in the code), "This is
already true" and "No path found". Lookups that would crash with a
`TypeError` become preconditions instead:
- the attributes of a key missing from the object map;
- a column at index -1;
- the arm's column when the arm is past the last column (arm ≥ |stacks|), hence the precondition `arm < |stacks|`. The successor generator reads `state.stacks[state.arm].length` (WorldGraph.ts:25), which throws only then.

## Model

| member | source | states |
|---|---|---|
| Interpreter.FindFrom | Interpreter.ts:575-580 | The scan from position i returns -1 exactly when the needle is absent from that suffix, otherwise the first position at or after i that holds it. |
| Interpreter.Find | Interpreter.ts:571-581 | -1 for a missing sequence; otherwise -1 exactly when the needle is absent, else the first index holding it (nothing before it holds it). |
| Interpreter.StackIndexFrom | Interpreter.ts:588-595 | The column scan from i returns -1 exactly when no column from i on contains the needle, else the first such column. |
| Interpreter.FindStackIndex | Interpreter.ts:587-596 | The result lies in [-1, number of columns); it is -1 exactly when no column contains the needle, else the first column that does. |
| Interpreter.Flatten | Interpreter.ts:603-607 | A key is in the concatenated columns exactly when some column contains it. |
| Interpreter.AllRelevantKeys | Interpreter.ts:601-612 | A key is listed exactly when some column holds it or it is held, and the multiset of keys is the columns' keys plus the held key. |
| Interpreter.FlattenUpdate | Interpreter.ts:603-607 | Replacing one column swaps exactly that column's keys for the new ones in the multiset of all column keys. |
| Interpreter.SizeToInt | Interpreter.ts:428-439 | Succeeds exactly on small, medium and large, with 1, 2, 3 in increasing order of size; any other size fails with "Unkown size: " followed by the size. |
| Interpreter.CanPlaceOnTop | Interpreter.ts:405-422 | Fails exactly when a size is unknown. Otherwise true iff the object is no larger than the target, the target is not a ball, no box goes on a same-size pyramid, and no small box goes on a brick. |
| Interpreter.BoxCanHoldObject | Interpreter.ts:384-396 | Fails exactly when a size is unknown. Otherwise true iff the object is a pyramid, plank or box strictly smaller than the box, or a ball no larger than the box. |
| Interpreter.CanPlaceOnTopOrInside | Interpreter.ts:368-376 | Always true on the floor. Into a box it is decided by the box check alone (false for the floor). A ball on anything else is false. Any other object follows the on-top check. Errors are size errors only. |
| Interpreter.PlacementRespectsSizes | Interpreter.ts:368-422 | An accepted placement off the floor is never on a ball and never on anything smaller. A non-ball only goes into a strictly larger box, and a ball only into a box. |
| Interpreter.RelationsNeedColumns | Interpreter.ts:512-565 | A key outside every column stands in no relation; the one exception is a bottom key being on top of the floor. |
| Interpreter.RelationConverses | Interpreter.ts:512-565 | leftof(a,b) iff rightof(b,a); under(a,b) iff above(b,a); beside is symmetric and means adjacent columns; inside implies ontop. |
| Interpreter.MatchesFor | Interpreter.ts:456-500 | The keys kept for one key of `curr` are exactly the other keys of `next` that stand in the relation to it. |
| Interpreter.CheckBinaryConstraint | Interpreter.ts:448-503 | Every key returned is from `next`. A key is returned exactly when it stands in the relation to some different key of `curr`. Membership only: the order and repetitions of the returned list are not stated, since its caller only tests emptiness and membership. |
| Interpreter.AlreadyTrueMeansRelated | Interpreter.ts:323-326 | The single-pair check finds one key exactly when the two keys differ and the relation already holds between them. |
| Interpreter.Admits | Interpreter.ts:328-352 | Per relation, whether the pair makes physical sense. Ontop/inside: exactly the placement check. Above: neither key is the floor and the target is not a ball. Under: neither is the floor, the object is not a ball, and the target may be placed on or in the object. Beside/leftof/rightof: neither is the floor. Any other relation admits nothing. Only ontop, inside and under can fail, and only with a size error. |
| Interpreter.ScanRow | Interpreter.ts:318-353 | For one source key, the row succeeds iff every check it makes succeeds. Its pairs are exactly the accepted ones, and its already-true records are exactly the targets already related. |
| Interpreter.ScanAll | Interpreter.ts:317-354 | For all source keys, the scan succeeds iff every check succeeds. Its pairs are exactly the accepted (key, target) pairs, and its records are exactly the already-true combinations. |
| Interpreter.EmptyScan | Interpreter.ts:355-357 | A scan with no pair accepts nothing. It records some already-true combination iff one exists. |
| Interpreter.FilterValidPairs | Interpreter.ts:313-359 | Every pair is from keys × keys2, never pairs a key with itself, is not already true, and makes physical sense; ontop/inside pairs pass the placement check; every accepted pair is returned. It fails with "This is already true" iff there is no pair but some already-true combination, and otherwise only with a size error. |
| Interpreter.ObjectsConsideredEqualProperties | Interpreter.ts:636-641 | Matching is symmetric and reflexive. A description with every attribute missing matches anything. On fully specified attributes (no "anyform"), matching is equality. |
| Interpreter.StringifyLiteralRoundTrip | Interpreter.ts:74-76 | Reading back the text form of a printable literal gives the literal. |
| Interpreter.StringifyLiteralInjective | Interpreter.ts:74-76 | Two printable literals with the same text form are equal. |
| Heuristics.ObjectsAboveKey | Heuristics.ts:168-170 | For a key in the stack, the result is in [0, height), and the key's first occurrence is that many places below the top. For an absent key it is the whole height. |
| Heuristics.UncoverCostBounds | Heuristics.ts:168-170 | The uncover cost is never negative. For a key in the column, it is 0 exactly when the key is the top and occurs only there. |
| Heuristics.ClosestFloorUpTo | Heuristics.ts:173-179 | After n columns the loop's value is infinite iff n = 0. Otherwise it is attained by one of the first n columns and is at most every one of their floor costs. |
| Heuristics.FindClosestFloor | Heuristics.ts:172-181 | Infinite iff there are no columns; otherwise the minimum over columns of height plus distance, and at most the height of column `index` when that column exists. |
| Heuristics.ClosestFloorZero | Heuristics.ts:172-181 | Freeing a floor spot costs 0 iff column `index` exists and is empty. |
| Heuristics.DistanceToKey | Heuristics.ts:117-122 | At least the arm's distance to the key's column. It is 0 exactly when the arm is over the key and nothing is on it. |
| Heuristics.HoldingHeuristic | Heuristics.ts:124-130 | Non-negative; 0 when the key is held, else arm distance plus 3 per object above the key; 0 exactly when held or the arm is over the uncovered key. |
| Heuristics.BesideHeuristic | Heuristics.ts:16-33 | At least the distance of the two columns from adjacency, with equality when either key is held. With neither held, it is 0 iff the interpreter's `beside` holds and one of the two keys is uncovered. |
| Heuristics.LeftOfHeuristic | Heuristics.ts:35-64 | Non-negative. With a key held, it is the arm's distance to the other key's column. With neither held, it is 0 when key2's column is left of key1's (as written). |
| Heuristics.RightOfHeuristic | Heuristics.ts:66-95 | Non-negative. With a key held, it is the arm's distance to the other key's column. With neither held, it is 0 when key2's column is right of key1's (as written). |
| Heuristics.AboveHeuristic | Heuristics.ts:97-115 | Non-negative. With key1 held, it is the arm's distance to key2's column, 0 iff the arm is over that column. Otherwise it is at least the cost of uncovering key1. With key2 held, 0 iff the arm is over key1 and key1 is uncovered. With neither held, 0 iff both share a column and key1 is uncovered. |
| Heuristics.InsideOrOntopOrBelowHeuristic | Heuristics.ts:132-166 | Infinite only for the floor goal with the start held and no columns. Floor goal with start held: the closest-floor cost from the arm. Floor goal otherwise: at least the closest-floor cost from start's column. Neither key held: the sum of the four distance terms. |
| Heuristics.InsideOrOntopOrBelowZero | Heuristics.ts:132-166 | When the estimate is 0. Floor goal with start held: iff the arm's column is empty. Floor goal otherwise: never. One key held: iff the arm is over the other key and it is uncovered. Neither held: only for a key and itself, uncovered under the arm, so it is positive whenever two different keys are the goal. |
| Heuristics.LeftOfHeuristicPositiveWhenSatisfied | Heuristics.ts:47-63 | As written, when neither key is held and key1 is already left of key2, the estimate is at least 1. |
| Heuristics.RightOfHeuristicPositiveWhenSatisfied | Heuristics.ts:78-94 | As written, when neither key is held and key1 is already right of key2, the estimate is at least 1. |
| Heuristics.SwappedGuardCounterexample | Heuristics.ts:35-95 | With a in column 0, b in column 1 and nothing held: leftof(a,b) holds yet its estimate is 1, and rightof(b,a) holds yet its estimate is 1. |
| Heuristics.LeftOfHeuristicCorrected | Heuristics.ts:35-64 | Non-negative, with the held cases as written, and 0 whenever key1 is left of key2 and neither key is held. |
| Heuristics.RightOfHeuristicCorrected | Heuristics.ts:66-95 | Non-negative, with the held cases as written, and 0 whenever key1 is right of key2 and neither key is held. |
| Heuristics.CorrectedEstimatesVanishOnGoal | Heuristics.ts:35-95 | When the relation holds and nothing relevant is held, the corrected estimate is 0 while the estimate as written is positive. |
| AStar.LookupInf | Graph.ts:112-119 | Infinity exactly for an absent key, else the stored score. |
| AStar.RemoveAtMembers | Graph.ts:83 | Removing a node from a duplicate-free open list removes exactly that node and keeps the list duplicate-free. |
| AStar.GetLowestF | Graph.ts:121-132 | Returns a position in the non-empty open list whose f-score no node beats; every node before it scores strictly more, so ties go to the earliest. |
| AStar.ReconstructPath | Graph.ts:133-140 | Terminates when parents are ranked (acyclic). The path ends at `curr` and starts at a node without a parent. Each node's parent is the node before it. |
| AStar.RelaxEdge | Graph.ts:88-105 | A closed neighbour leaves everything unchanged. A new neighbour is appended to open with g = g(curr) + cost. An open neighbour's g becomes the smaller of its g and the new cost and changes only on strict improvement. On discovery or strict improvement, g becomes g(curr) + cost, f becomes that g + h, and the parent becomes `curr`; an open neighbour without strict improvement leaves the whole state unchanged. No other node's g changes. |
| AStar.CloseAt | Graph.ts:83-84 | Closing adds exactly the chosen open node to the closed set and leaves the scores and parents alone. |
| AStar.CloseKeepsConsistent | Graph.ts:83-84 | Closing the chosen node keeps the bookkeeping consistent: open and closed disjoint, and the scored nodes exactly open ∪ closed. It also keeps the start parentless with g 0, and keeps parents closed, ranked and joined by an edge that accounts for the g-score. |
| AStar.RelaxEdgeKeepsConsistent | Graph.ts:88-105 | Relaxing an edge of a closed node keeps that consistency and gives the edge's target a g-score. |
| AStar.ExpandNode | Graph.ts:86-105 | After the loop over `curr`'s edges the search is consistent, the closed set is unchanged, and every edge leaving a closed node leads to a scored node. |
| AStar.ExpandLowest | Graph.ts:76-105 | One round for a non-goal node closes exactly that node and keeps the loop invariant; the set of unclosed reachable nodes shrinks. |
| AStar.AStarSearch | Graph.ts:51-110 | On success the path starts at `start`, ends at a goal node, and is a walk along the graph's edges whose costs sum to the returned cost. It fails, with "No path found", only when no walk from `start` reaches a goal. |
| AStar.ReconstructedPathIsWalk | Graph.ts:76-81 | A path rebuilt from the parents of a scored node starts at `start` and is a walk whose cost equals that node's g-score. |
| AStar.NoGoalReachable | Graph.ts:75-108 | When the open list is empty, the closed set holds no goal and is closed under edges, so no walk from `start` reaches a goal. |
| AStar.PathStaysIn | Graph.ts:86-105 | A walk starting in a set closed under edges stays in it. |
| WorldGraph.PickUp | WorldGraph.ts:58-67 | The gripper holds the former top. The arm's column loses exactly that top. Other columns, the arm and the attributes are unchanged. |
| WorldGraph.Drop | WorldGraph.ts:69-78 | The held key is pushed onto the arm's column and the gripper is emptied. Other columns, the arm and the attributes are unchanged. |
| WorldGraph.MoveLeft | WorldGraph.ts:80-88 | The arm moves one column left; columns, gripper and attributes are unchanged. |
| WorldGraph.MoveRight | WorldGraph.ts:90-98 | The arm moves one column right; columns, gripper and attributes are unchanged. |
| WorldGraph.CanDrop | WorldGraph.ts:107-112 | Only an unknown size makes it fail, and between sized keys it never fails. Onto a box: true iff the held key is a pyramid, plank or box strictly smaller, or a ball at most as large. Onto anything else: true iff neither is a ball, the held key is at most as large, and it is not a box on a same-size pyramid or a small box on a brick. |
| WorldGraph.GripperEdges | WorldGraph.ts:24-36 | At most one edge. A pick-up edge exists iff nothing is held and the column is non-empty. A drop edge exists iff something is held and the column is empty or the placement check allows it. It fails only when that check fails. |
| WorldGraph.ArmEdges | WorldGraph.ts:38-44 | A left edge iff arm > 0, then a right edge iff arm < columns - 1, in that order and nothing else. |
| WorldGraph.OutgoingEdges | WorldGraph.ts:20-48 | At most 3 edges in the order pick/drop, left, right. Each starts at the node, costs 1, and leads to the state its action produces. Each of the four actions is present exactly under its guard. It fails only with the placement check's size error. |
| WorldGraph.CombinedEdges | WorldGraph.ts:20-48 | The gripper edge followed by the arm edges keeps both lists' facts and the rank order. |
| WorldGraph.CompareNodes | WorldGraph.ts:50-56 | The result is 0 or 1, and 0 exactly when the two states are equal. |
| WorldGraph.CompareNodesIsEquivalence | WorldGraph.ts:50-56 | Comparison is reflexive, symmetric and transitive, and ignores the action. |
| WorldGraph.PickUpConserves | WorldGraph.ts:58-67 | Picking up keeps the multiset of all keys (columns plus gripper). |
| WorldGraph.DropConserves | WorldGraph.ts:69-78 | Dropping keeps the multiset of all keys (columns plus gripper). |
| WorldGraph.MoveConserves | WorldGraph.ts:58-98 | One move keeps the multiset of keys, the number of columns and the attributes, and keeps the arm over a column. |
| WorldGraph.SuccessorsConserve | WorldGraph.ts:20-98 | Every successor keeps the multiset of keys, the number of columns and the attributes, and keeps the arm over a column. |
| WorldGraph.PickUpThenDrop | WorldGraph.ts:63-75 | Dropping right after picking up restores the world. |
| WorldGraph.DropThenPickUp | WorldGraph.ts:63-75 | Picking up right after dropping restores the world. |
| WorldGraph.MovesUndoEachOther | WorldGraph.ts:85-95 | Left after right, and right after left (when possible), restore the world. |
| WorldGraph.PlacementDecided | Interpreter.ts:368-439 | Between objects of known sizes the placement check never fails. |
| WorldGraph.SuccessorsStayValid | WorldGraph.ts:20-112 | In a valid world the generator does not fail, and every successor is valid again. Valid means: the arm is over a column, every key has a known size, and every object rests on one it may rest on or in. |
| WorldGraph.ArmMoveStaysValid | WorldGraph.ts:80-98 | Moving the arm within the columns keeps a world valid. |
| WorldGraph.SameObjectsSameChecks | WorldGraph.ts:103-105 | Two worlds with the same attributes agree on every key's size and on every placement check. |
| WorldGraph.PickUpStaysValid | WorldGraph.ts:58-67 | Picking up keeps a world valid. |
| WorldGraph.DropStaysValid | WorldGraph.ts:69-78 | A legal drop keeps a world valid. |

## Left out

- The command interpreter is not part of this model. That covers `interpret`, `interpretCommand`, the take/put/move cases and the `resolve…Keys` functions. They work on parser structures, and Parser.ts is not part of this model. `stringifyObject` and `produceErrorString` only build English messages.
- `checkBinaryConstraint` adds a "floor" entry to the object map when the relation is "ontop". Instead, "floor" is always a pseudo-object with form, size and colour "floor".
- Node identity in the A\* sets and maps is value equality of nodes. The library's sets and maps (lib/collections.ts) are not part of this model. A node's `toString` is not a sound identity, because it is not injective. With the same arm and gripper, columns `[["a"],["b","c"],[]]` and `[["a","b"],["c"],[]]` both print as "a,b,c,". In the other direction, `toString` (WorldGraph.ts:12-14) leaves out the action. So the code treats the same state reached by two different moves as one node, and the model's `WorldNode`, whose equality includes the action, treats it as two. An A\* instance over the world graph must therefore key its sets and maps on `node.state`, not on the whole node.
- The open set is a list in insertion order, which is the iteration order `getLowestF` scans. Ties between equal f-scores go to the earliest node in that order.
- `copyWorld` and the JSON comparison in `compareNodes` become immutable values and structural equality. So no successor can share or alter its source state.
- `holding` is an `Option`, not a JavaScript value tested for truthiness. An empty-string key is therefore a held object.
- Graph.js (a stale compiled file with a different search) is not part of this model, and neither is SimpleTest.ts, a console driver. `GridGraph` and `GridNode` are also left out: they use floating-point costs and text rendering.
- The `timeout` parameter of `aStarSearch` is never read, so it is dropped.
- AStar.AStarSearch: the heuristic is a natural number, so an infinite estimate is not modelled, and edge costs are natural numbers. The contract does not claim the path is cheapest, because the heuristic is not assumed admissible.
- AStar.AStarSearch: a ghost set of nodes, closed under edges and containing the start, bounds the search. When no goal is reachable and the reachable part is infinite, the code loops forever; the model covers only searches whose reachable part lies in a finite set. (The code returns as soon as a goal leaves the open list, so on an infinite graph with a reachable goal it may still stop.)
- AStar.GetLowestF: requires a non-empty open list. The code returns `undefined` for an empty one, but the loop never calls it then. Its `!bestNode` test on a falsy node value is not modelled.
- AStar.RelaxEdge: the f-score equation f = g + h is stated for each update, not kept as a loop invariant of the search.
- The heuristics require the columns they index to exist (`…Defined` predicates). Reading column -1 gives `undefined`, whose `length` throws a `TypeError`.
- The interpreter functions require every key they look up to have attributes. The floor is always known. A missing key would make the code read a property of `undefined`.
- Interpreter.StringifyLiteralRoundTrip: proved for literals with at least one argument and no ',', '(' or ')' inside names. "r()" reads back as one empty argument, so the text form of a literal without arguments is ambiguous.
- Heuristics.LeftOfHeuristic, Heuristics.RightOfHeuristic: modelled as written, with the guard on the wrong side (see Findings).

## Findings

| source | as written | input that shows it | evidently intended | confidence | as-written member | corrected member |
|---|---|---|---|---|---|---|
| Heuristics.ts:52 | `leftOfHeuristic` returns 0 when key2's column is left of key1's, i.e. when leftof(key1, key2) is false | columns [["a"], ["b"]], nothing held, leftof(a, b): already true, yet the estimate is 1 | return 0 when key1's column is left of key2's (`key1StackIndex < key2StackIndex`) | not executed | Heuristics.SwappedGuardCounterexample, Heuristics.LeftOfHeuristicPositiveWhenSatisfied | Heuristics.LeftOfHeuristicCorrected, Heuristics.CorrectedEstimatesVanishOnGoal |
| Heuristics.ts:83 | `rightOfHeuristic` returns 0 when key2's column is right of key1's, i.e. when rightof(key1, key2) is false | columns [["a"], ["b"]], nothing held, rightof(b, a): already true, yet the estimate is 1 | return 0 when key1's column is right of key2's (`key1StackIndex > key2StackIndex`) | not executed | Heuristics.SwappedGuardCounterexample, Heuristics.RightOfHeuristicPositiveWhenSatisfied | Heuristics.RightOfHeuristicCorrected, Heuristics.CorrectedEstimatesVanishOnGoal |

=== FILE: astar.dfy ===
/** Generic A* search over a directed graph given by its outgoing-edge
    function: the open list, the closed set, the best-known parent
    (`cameFrom`), and the g- and f-scores, with `Infinity` for a node that
    has no score yet. */
module AStar {
  import opened Common

  /** An edge in a graph. */
  datatype Edge<N> = Edge(from: N, to: N, cost: nat)

  /** A directed graph: the edges that leave each node. */
  datatype Graph<!N> = Graph(outgoingEdges: N -> seq<Edge<N>>)

  /** A path from the start to a goal node and its total cost. */
  datatype SearchResult<N> = SearchResult(path: seq<N>, cost: nat)

  const NoPathMsg := "No path found"

  /** The score recorded for `key`, `Infinity` when there is none. */
  function LookupInf<N>(m: map<N, nat>, key: N): (r: Score)
    ensures r.Inf? <==> key !in m
    ensures key in m ==> r == Fin(m[key])
  {
    if key in m then Fin(m[key]) else Inf
  }

  /** `p` is a walk along edges of `G` whose edge costs sum to `cost`. */
  ghost predicate IsPath<N>(G: Graph<N>, p: seq<N>, cost: int)
    decreases |p|
  {
    if |p| <= 1 then |p| == 1 && cost == 0
    else exists e :: e in G.outgoingEdges(p[|p| - 2]) && e.to == p[|p| - 1] && IsPath(G, p[..|p| - 1], cost - e.cost)
  }

  /** Every edge leaving a node of `S` ends in `S`. */
  ghost predicate ClosedUnderEdges<N>(G: Graph<N>, S: set<N>) {
    forall n, e :: n in S && e in G.outgoingEdges(n) ==> e.to in S
  }

  /** A walk that starts in a set closed under edges never leaves it. */
  lemma {:induction false} PathStaysIn<N>(G: Graph<N>, p: seq<N>, cost: int, S: set<N>)
    requires IsPath(G, p, cost) && p[0] in S && ClosedUnderEdges(G, S)
    ensures forall i :: 0 <= i < |p| ==> p[i] in S
    decreases |p|
  {
    if |p| > 1 {
      var e :| e in G.outgoingEdges(p[|p| - 2]) && e.to == p[|p| - 1] && IsPath(G, p[..|p| - 1], cost - e.cost);
      PathStaysIn(G, p[..|p| - 1], cost - e.cost, S);
      assert p[|p| - 2] == p[..|p| - 1][|p| - 2];
    }
  }

  predicate NoDup<T(==)>(s: seq<T>) {
    forall i, j :: 0 <= i < j < |s| ==> s[i] != s[j]
  }

  /** `s` without its element at position `k`. */
  function RemoveAt<T>(s: seq<T>, k: nat): seq<T>
    requires k < |s|
  {
    s[..k] + s[k + 1..]
  }

  /** Removing the element at `k` from a duplicate-free list removes exactly
      that element. */
  lemma RemoveAtMembers<T>(s: seq<T>, k: nat)
    requires k < |s| && NoDup(s)
    ensures NoDup(RemoveAt(s, k))
    ensures |RemoveAt(s, k)| == |s| - 1
    ensures forall x :: x in RemoveAt(s, k) <==> x in s && x != s[k]
  {
    var r := RemoveAt(s, k);
    forall x | x in s && x != s[k]
      ensures x in r
    {
      var i :| 0 <= i < |s| && s[i] == x;
      if i < k { assert r[i] == x; } else { assert r[i - 1] == x; }
    }
    forall i, j | 0 <= i < j < |r|
      ensures r[i] != r[j]
    {
      var i', j' := if i < k then i else i + 1, if j < k then j else j + 1;
      assert r[i] == s[i'] && r[j] == s[j'];
    }
  }

  /** The position, in `open`, of the node with the least f-score: the first
      node, replaced by each later one whose score is strictly smaller. So
      it is a minimum, and every node before it scores strictly more. */
  method GetLowestF<N>(open: seq<N>, fScore: map<N, nat>) returns (best: nat)
    requires |open| > 0
    ensures best < |open|
    ensures forall j :: 0 <= j < |open| ==> !Below(LookupInf(fScore, open[j]), LookupInf(fScore, open[best]))
    ensures forall j :: 0 <= j < best ==> Below(LookupInf(fScore, open[best]), LookupInf(fScore, open[j]))
  {
    best := 0;
    var i := 1;
    while i < |open|
      invariant best < i <= |open|
      invariant forall j :: 0 <= j < i ==> !Below(LookupInf(fScore, open[j]), LookupInf(fScore, open[best]))
      invariant forall j :: 0 <= j < best ==> Below(LookupInf(fScore, open[best]), LookupInf(fScore, open[j]))
    {
      if Below(LookupInf(fScore, open[i]), LookupInf(fScore, open[best])) {
        best := i;
      }
      i := i + 1;
    }
  }

  /** Parents are ranked, and a ranked node's parent ranks strictly lower:
      following parents from any node ends. */
  ghost predicate Ranked<N>(cameFrom: map<N, N>, rank: map<N, nat>) {
    forall n :: n in cameFrom ==> cameFrom[n] in rank && (n in rank ==> rank[cameFrom[n]] < rank[n])
  }

  /** Each node of `p` after the first has the node before it as parent. */
  predicate FollowsParents<N>(cameFrom: map<N, N>, p: seq<N>) {
    forall k :: 0 < k < |p| ==> p[k] in cameFrom && cameFrom[p[k]] == p[k - 1]
  }

  /** Follows `cameFrom` back from `curr` to a node without a parent: a
      path that ends at `curr`, starts at a root, and in which every node
      is its successor's parent. */
  method ReconstructPath<N>(cameFrom: map<N, N>, curr: N, ghost rank: map<N, nat>) returns (totalPath: seq<N>)
    requires Ranked(cameFrom, rank)
    ensures |totalPath| > 0 && Last(totalPath) == curr
    ensures totalPath[0] !in cameFrom
    ensures FollowsParents(cameFrom, totalPath)
  {
    var c := curr;
    totalPath := [curr];
    while c in cameFrom
      invariant |totalPath| > 0 && totalPath[0] == c && Last(totalPath) == curr
      invariant FollowsParents(cameFrom, totalPath)
      decreases if c in rank then 0 else 1, if c in rank then rank[c] else 0
    {
      c := cameFrom[c];
      totalPath := [c] + totalPath;
    }
  }

  /** The search's bookkeeping. */
  datatype SearchState<N> = SearchState(
    open: seq<N>,
    closed: set<N>,
    cameFrom: map<N, N>,
    gScore: map<N, nat>,
    fScore: map<N, nat>)

  /** Processes one outgoing edge of `curr`: a closed neighbour is skipped;
      a new one is discovered with `curr` as parent; an open one gets `curr`
      as parent only when the path through `curr` is strictly cheaper. */
  function RelaxEdge<N(!new)>(s: SearchState<N>, curr: N, e: Edge<N>, h: N -> nat): (r: SearchState<N>)
    requires curr in s.gScore
    ensures r.closed == s.closed
    ensures e.to in s.closed ==> r == s
    ensures e.to !in s.closed ==> e.to in r.gScore && e.to in r.open
    ensures e.to !in s.closed && e.to !in s.open ==> r.open == s.open + [e.to]
    ensures e.to in s.open ==> r.open == s.open
    ensures e.to in s.open && e.to in s.gScore && e.to !in s.closed ==>
      r.gScore[e.to] == if s.gScore[curr] + e.cost < s.gScore[e.to] then s.gScore[curr] + e.cost else s.gScore[e.to]
    ensures e.to !in s.open && e.to !in s.closed ==> r.gScore[e.to] == s.gScore[curr] + e.cost
    ensures e.to in s.open && e.to in s.gScore && r.gScore != s.gScore ==> s.gScore[curr] + e.cost < s.gScore[e.to]
    ensures r.fScore != s.fScore ==> e.to in r.gScore && r.fScore == s.fScore[e.to := r.gScore[e.to] + h(e.to)]
    ensures r.cameFrom != s.cameFrom ==> r.cameFrom == s.cameFrom[e.to := curr]
    ensures r.gScore != s.gScore ==> r.cameFrom == s.cameFrom[e.to := curr]
    ensures e.to in s.open && e.to in s.gScore && !(s.gScore[curr] + e.cost < s.gScore[e.to]) ==> r == s
    ensures e.to !in s.closed && (e.to !in s.open || e.to !in s.gScore || s.gScore[curr] + e.cost < s.gScore[e.to]) ==>
      && r.gScore == s.gScore[e.to := s.gScore[curr] + e.cost]
      && r.cameFrom == s.cameFrom[e.to := curr]
      && r.fScore == s.fScore[e.to := r.gScore[e.to] + h(e.to)]
    ensures forall m :: m != e.to ==>
      (m in r.gScore <==> m in s.gScore) && (m in s.gScore ==> r.gScore[m] == s.gScore[m])
  {
    var neighbour := e.to;
    if neighbour in s.closed then s
    else
      var tentative := s.gScore[curr] + e.cost;
      if neighbour in s.open && !Below(Fin(tentative), LookupInf(s.gScore, neighbour)) then s
      else
        SearchState(
          if neighbour in s.open then s.open else s.open + [neighbour],
          s.closed,
          s.cameFrom[neighbour := curr],
          s.gScore[neighbour := tentative],
          s.fScore[neighbour := tentative + h(neighbour)])
  }

  /** Each non-start node with a parent is reached from it by an edge whose
      cost accounts for the difference in g-score. */
  ghost predicate TreeEdge<N>(G: Graph<N>, s: SearchState<N>, n: N) {
    && n in s.cameFrom && n in s.gScore && s.cameFrom[n] in s.gScore
    && exists e :: e in G.outgoingEdges(s.cameFrom[n]) && e.to == n && s.gScore[n] == s.gScore[s.cameFrom[n]] + e.cost
  }

  /** `n` has a g-score but is not the start, so it must have a parent.
      (Kept as a named predicate so that the "has a parent" fact is only
      used where it is asked for.) */
  ghost predicate NeedsParent<N>(s: SearchState<N>, start: N, n: N) {
    n in s.gScore && n != start
  }

  /** The open list has no repeats and no closed node; the nodes with a
      g-score are exactly the open and the closed ones, all in `U`. */
  ghost predicate FrontierOk<N(!new)>(U: set<N>, s: SearchState<N>) {
    && NoDup(s.open)
    && (forall n :: n in s.open ==> n !in s.closed)
    && (forall n :: n in s.gScore <==> n in s.open || n in s.closed)
    && (forall n :: n in s.gScore ==> n in U)
  }

  /** The start has g-score 0, no parent, and is the first node closed;
      every other scored node has a
      closed parent joined to it by an edge that accounts for its score. */
  ghost predicate ParentsOk<N(!new)>(G: Graph<N>, start: N, s: SearchState<N>) {
    && start in s.gScore && s.gScore[start] == 0 && start !in s.cameFrom
    && (s.closed != {} ==> start in s.closed)
    && (forall n :: NeedsParent(s, start, n) ==> n in s.cameFrom)
    && (forall n :: n in s.cameFrom ==> s.cameFrom[n] in s.closed && TreeEdge(G, s, n))
  }

  /** `rank` numbers the closed nodes in the order they were closed, and
      parents rank below their children. */
  ghost predicate RankOk<N(!new)>(s: SearchState<N>, rank: map<N, nat>) {
    && (forall n :: n in rank <==> n in s.closed)
    && (forall n :: n in rank ==> rank[n] < |s.closed|)
    && Ranked(s.cameFrom, rank)
  }

  /** What the search keeps true between steps. */
  ghost predicate Consistent<N(!new)>(G: Graph<N>, start: N, U: set<N>, s: SearchState<N>, rank: map<N, nat>) {
    FrontierOk(U, s) && ParentsOk(G, start, s) && RankOk(s, rank)
  }

  /** Every edge leaving a closed node other than `except` leads to a node
      with a g-score. */
  ghost predicate ExpandedExcept<N>(G: Graph<N>, s: SearchState<N>, except: Option<N>) {
    forall n, e :: n in s.closed && Some(n) != except && e in G.outgoingEdges(n) ==> e.to in s.gScore
  }

  /** Moves the node at position `k` of the open list to the closed set. */
  function CloseAt<N>(s: SearchState<N>, k: nat): (r: SearchState<N>)
    requires k < |s.open|
    ensures r.closed == s.closed + {s.open[k]}
    ensures r.gScore == s.gScore && r.cameFrom == s.cameFrom && r.fScore == s.fScore
  {
    s.(open := RemoveAt(s.open, k), closed := s.closed + {s.open[k]})
  }

  lemma CloseKeepsFrontier<N(!new)>(U: set<N>, s: SearchState<N>, k: nat)
    requires FrontierOk(U, s) && k < |s.open|
    ensures FrontierOk(U, CloseAt(s, k))
    ensures s.open[k] !in s.closed
  {
    RemoveAtMembers(s.open, k);
  }

  lemma CloseKeepsParents<N(!new)>(G: Graph<N>, start: N, s: SearchState<N>, k: nat)
    requires ParentsOk(G, start, s) && k < |s.open| && s.open[k] in s.gScore
    ensures ParentsOk(G, start, CloseAt(s, k))
  {
    var r := CloseAt(s, k);
    if s.open[k] != start {
      assert NeedsParent(s, start, s.open[k]);
      assert s.cameFrom[s.open[k]] in s.closed;
    }
    forall n | n in r.cameFrom
      ensures r.cameFrom[n] in r.closed && TreeEdge(G, r, n)
    {
      assert TreeEdge(G, s, n);
    }
    forall n | NeedsParent(r, start, n)
      ensures n in r.cameFrom
    {
      assert NeedsParent(s, start, n);
    }
  }

  lemma CloseKeepsRank<N(!new)>(s: SearchState<N>, rank: map<N, nat>, k: nat)
    requires RankOk(s, rank) && k < |s.open| && s.open[k] !in s.closed
    ensures RankOk(CloseAt(s, k), rank[s.open[k] := |s.closed|])
  {
    var curr := s.open[k];
    var r := CloseAt(s, k);
    var rank' := rank[curr := |s.closed|];
    assert |r.closed| == |s.closed| + 1;
    assert Ranked(r.cameFrom, rank') by {
      forall n | n in r.cameFrom
        ensures r.cameFrom[n] in rank' && (n in rank' ==> rank'[r.cameFrom[n]] < rank'[n])
      {
        assert r.cameFrom[n] in rank;
      }
    }
  }

  /** Closing an open node, ranked after every node closed before it,
      keeps the search consistent. */
  lemma CloseKeepsConsistent<N(!new)>(G: Graph<N>, start: N, U: set<N>, s: SearchState<N>,
                                      rank: map<N, nat>, k: nat)
    requires Consistent(G, start, U, s, rank) && k < |s.open|
    ensures Consistent(G, start, U, CloseAt(s, k), rank[s.open[k] := |s.closed|])
    ensures s.open[k] in U - s.closed
    ensures ExpandedExcept(G, s, None) ==> ExpandedExcept(G, CloseAt(s, k), Some(s.open[k]))
  {
    CloseKeepsFrontier(U, s, k);
    CloseKeepsParents(G, start, s, k);
    CloseKeepsRank(s, rank, k);
  }

  lemma RelaxKeepsFrontier<N(!new)>(U: set<N>, s: SearchState<N>, curr: N, e: Edge<N>, h: N -> nat)
    requires FrontierOk(U, s) && curr in s.gScore && e.to in U
    ensures FrontierOk(U, RelaxEdge(s, curr, e, h))
  {
    var r := RelaxEdge(s, curr, e, h);
    var n := e.to;
    if n !in s.closed && n !in s.open {
      forall i, j | 0 <= i < j < |r.open|
        ensures r.open[i] != r.open[j]
      {
        if j == |s.open| { assert r.open[i] == s.open[i]; }
      }
    }
  }

  lemma RelaxKeepsParents<N(!new)>(G: Graph<N>, start: N, s: SearchState<N>, curr: N, e: Edge<N>, h: N -> nat)
    requires ParentsOk(G, start, s) && curr in s.closed && e in G.outgoingEdges(curr)
    requires forall n :: n in s.closed ==> n in s.gScore
    ensures ParentsOk(G, start, RelaxEdge(s, curr, e, h))
  {
    var r := RelaxEdge(s, curr, e, h);
    var n := e.to;
    if r != s {
      assert n != start;
      assert r.cameFrom == s.cameFrom[n := curr] && r.gScore[n] == s.gScore[curr] + e.cost;
      forall m | m in r.cameFrom
        ensures r.cameFrom[m] in r.closed && TreeEdge(G, r, m)
      {
        if m == n {
          assert e in G.outgoingEdges(r.cameFrom[m]) && e.to == m && r.gScore[m] == r.gScore[r.cameFrom[m]] + e.cost;
        } else {
          assert TreeEdge(G, s, m);
          var p := s.cameFrom[m];
          var e' :| e' in G.outgoingEdges(p) && e'.to == m && s.gScore[m] == s.gScore[p] + e'.cost;
          assert r.gScore[m] == r.gScore[p] + e'.cost;
        }
      }
      forall m | NeedsParent(r, start, m)
        ensures m in r.cameFrom
      {
        if m != n {
          assert NeedsParent(s, start, m);
        }
      }
    }
  }

  lemma RelaxKeepsRank<N(!new)>(s: SearchState<N>, rank: map<N, nat>, curr: N, e: Edge<N>, h: N -> nat)
    requires RankOk(s, rank) && curr in s.closed && curr in s.gScore
    ensures RankOk(RelaxEdge(s, curr, e, h), rank)
  {
  }

  /** Relaxing an edge of a freshly closed node keeps the search
      consistent and discovers the edge's target. */
  lemma RelaxEdgeKeepsConsistent<N(!new)>(G: Graph<N>, start: N, h: N -> nat, U: set<N>, s: SearchState<N>,
                                          rank: map<N, nat>, curr: N, e: Edge<N>)
    requires Consistent(G, start, U, s, rank)
    requires curr in s.closed && e in G.outgoingEdges(curr) && ClosedUnderEdges(G, U)
    ensures Consistent(G, start, U, RelaxEdge(s, curr, e, h), rank)
    ensures e.to in RelaxEdge(s, curr, e, h).gScore
    ensures forall n :: n in s.gScore ==> n in RelaxEdge(s, curr, e, h).gScore
  {
    assert e.to in U;
    RelaxKeepsFrontier(U, s, curr, e, h);
    RelaxKeepsParents(G, start, s, curr, e, h);
    RelaxKeepsRank(s, rank, curr, e, h);
  }

  /** One turn of the loop over `curr`'s edges keeps its invariant: the
      search stays consistent, the closed set is unchanged, and the targets
      of the edges handled so far keep their g-scores. */
  lemma RelaxStep<N(!new)>(G: Graph<N>, start: N, h: N -> nat, U: set<N>, r: SearchState<N>,
                           rank: map<N, nat>, curr: N, edges: seq<Edge<N>>, i: nat)
    requires Consistent(G, start, U, r, rank) && ClosedUnderEdges(G, U)
    requires curr in r.closed && i < |edges| && edges == G.outgoingEdges(curr)
    requires ExpandedExcept(G, r, Some(curr))
    requires forall j :: 0 <= j < i ==> edges[j].to in r.gScore
    ensures Consistent(G, start, U, RelaxEdge(r, curr, edges[i], h), rank)
    ensures RelaxEdge(r, curr, edges[i], h).closed == r.closed
    ensures ExpandedExcept(G, RelaxEdge(r, curr, edges[i], h), Some(curr))
    ensures forall j :: 0 <= j < i + 1 ==> edges[j].to in RelaxEdge(r, curr, edges[i], h).gScore
  {
    RelaxEdgeKeepsConsistent(G, start, h, U, r, rank, curr, edges[i]);
    var r' := RelaxEdge(r, curr, edges[i], h);
    forall j | 0 <= j < i + 1
      ensures edges[j].to in r'.gScore
    {
      if j < i {
        assert edges[j].to in r.gScore;
      }
    }
  }

  /** Once every edge of `curr` has been relaxed, all closed nodes are
      fully expanded. */
  lemma ExpandedAll<N>(G: Graph<N>, r: SearchState<N>, curr: N)
    requires ExpandedExcept(G, r, Some(curr))
    requires forall j :: 0 <= j < |G.outgoingEdges(curr)| ==> G.outgoingEdges(curr)[j].to in r.gScore
    ensures ExpandedExcept(G, r, None)
  {
    forall n, e | n in r.closed && e in G.outgoingEdges(n)
      ensures e.to in r.gScore
    {
      if n == curr {
        var j :| 0 <= j < |G.outgoingEdges(curr)| && G.outgoingEdges(curr)[j] == e;
      }
    }
  }

  /** The loop over the outgoing edges of a freshly closed node `curr`:
      relaxes each in order, after which every edge leaving a closed node
      leads to a node with a g-score. */
  method ExpandNode<N(!new)>(G: Graph<N>, start: N, h: N -> nat, ghost U: set<N>, s: SearchState<N>,
                             ghost rank: map<N, nat>, curr: N) returns (r: SearchState<N>)
    requires Consistent(G, start, U, s, rank) && ClosedUnderEdges(G, U)
    requires curr in s.closed && ExpandedExcept(G, s, Some(curr))
    ensures Consistent(G, start, U, r, rank)
    ensures r.closed == s.closed
    ensures ExpandedExcept(G, r, None)
  {
    var outgoingE := G.outgoingEdges(curr);
    r := s;
    var edgeIndex := 0;
    while edgeIndex < |outgoingE|
      invariant 0 <= edgeIndex <= |outgoingE|
      invariant Consistent(G, start, U, r, rank)
      invariant r.closed == s.closed
      invariant ExpandedExcept(G, r, Some(curr))
      invariant forall j :: 0 <= j < edgeIndex ==> outgoingE[j].to in r.gScore
    {
      RelaxStep(G, start, h, U, r, rank, curr, outgoingE, edgeIndex);
      r := RelaxEdge(r, curr, outgoingE[edgeIndex], h);
      edgeIndex := edgeIndex + 1;
    }
    ExpandedAll(G, r, curr);
  }

  /** A* from `start` towards a node satisfying `goal`, guided by `h`. The
      ghost set `U` holds every node reachable from `start` and bounds the
      number of expansions. On success the path is a walk along the graph's
      edges from `start` to a goal node, and its cost is the sum of those
      edges' costs; the search fails, with the message "No path found", only when
      no walk from `start` reaches a goal node. */
  method AStarSearch<N(!new)>(G: Graph<N>, start: N, goal: N -> bool, h: N -> nat, ghost U: set<N>)
    returns (r: Result<SearchResult<N>>)
    requires start in U && ClosedUnderEdges(G, U)
    ensures r.Ok? ==> |r.value.path| > 0 && r.value.path[0] == start && goal(Last(r.value.path))
    ensures r.Ok? ==> IsPath(G, r.value.path, r.value.cost)
    ensures r.Err? ==> r.msg == NoPathMsg
    ensures r.Err? ==> forall p, c :: IsPath(G, p, c) && p[0] == start ==> !goal(Last(p))
  {
    var s := SearchState([start], {}, map[], map[start := 0], map[start := h(start)]);
    ghost var rank: map<N, nat> := map[];
    while |s.open| > 0
      invariant SearchInvariant(G, start, goal, U, s, rank)
      decreases |U - s.closed|
    {
      var k := GetLowestF(s.open, s.fScore);
      var curr := s.open[k];
      if goal(curr) {
        var path := ReconstructPath(s.cameFrom, curr, rank);
        ReconstructedPathIsWalk(G, start, s, curr, path);
        return Ok(SearchResult(path, s.gScore[curr]));
      }
      s, rank := ExpandLowest(G, start, goal, h, U, s, rank, k);
    }
    NoGoalReachable(G, start, goal, U, s, rank);
    return Err(NoPathMsg);
  }

  /** What holds at the head of the search loop: the bookkeeping is
      consistent, every closed node has been expanded, and none is a
      goal. */
  ghost predicate SearchInvariant<N(!new)>(G: Graph<N>, start: N, goal: N -> bool, U: set<N>, s: SearchState<N>,
                                           rank: map<N, nat>) {
    && Consistent(G, start, U, s, rank)
    && ExpandedExcept(G, s, None)
    && (forall n :: n in s.closed ==> !goal(n))
  }

  /** One round of the search for a node `s.open[k]` that is not a goal:
      it moves from the open list to the closed set and its edges are
      relaxed. The closed set grows by exactly that node. */
  method ExpandLowest<N(!new)>(G: Graph<N>, start: N, goal: N -> bool, h: N -> nat, ghost U: set<N>,
                               s: SearchState<N>, ghost rank: map<N, nat>, k: nat)
    returns (s': SearchState<N>, ghost rank': map<N, nat>)
    requires SearchInvariant(G, start, goal, U, s, rank) && ClosedUnderEdges(G, U)
    requires k < |s.open| && !goal(s.open[k])
    ensures SearchInvariant(G, start, goal, U, s', rank')
    ensures s'.closed == s.closed + {s.open[k]}
    ensures |U - s'.closed| < |U - s.closed|
  {
    var curr := s.open[k];
    CloseKeepsConsistent(G, start, U, s, rank, k);
    rank' := rank[curr := |s.closed|];
    var closed := CloseAt(s, k);
    assert U - closed.closed < U - s.closed by {
      assert curr in U - s.closed;
    }
    s' := ExpandNode(G, start, h, U, closed, rank', curr);
  }

  /** A walk extended by an edge leaving its last node is a walk, with the
      edge's cost added. */
  lemma ExtendPath<N>(G: Graph<N>, p: seq<N>, c: int, e: Edge<N>)
    requires |p| > 0 && IsPath(G, p, c) && e in G.outgoingEdges(Last(p))
    ensures IsPath(G, p + [e.to], c + e.cost)
  {
    var q := p + [e.to];
    assert q[..|q| - 1] == p;
    assert q[|q| - 2] == Last(p);
  }

  /** One more step along the parent links extends the walk by the tree
      edge, whose cost is the difference in g-score. */
  lemma ExtendAlongParent<N(!new)>(G: Graph<N>, s: SearchState<N>, path: seq<N>, j: nat)
    requires j + 1 < |path| && TreeEdge(G, s, path[j + 1]) && s.cameFrom[path[j + 1]] == path[j]
    requires IsPath(G, path[..j + 1], s.gScore[path[j]])
    ensures IsPath(G, path[..j + 2], s.gScore[path[j + 1]])
  {
    var n := path[j + 1];
    var e :| e in G.outgoingEdges(path[j]) && e.to == n && s.gScore[n] == s.gScore[path[j]] + e.cost;
    ExtendPath(G, path[..j + 1], s.gScore[path[j]], e);
    assert path[..j + 1] + [e.to] == path[..j + 2];
  }

  /** A path rebuilt from the parents of a node with a g-score starts at
      `start` and is a walk whose cost is that node's g-score. */
  lemma ReconstructedPathIsWalk<N(!new)>(G: Graph<N>, start: N, s: SearchState<N>, curr: N, path: seq<N>)
    requires ParentsOk(G, start, s) && (forall n :: n in s.closed ==> n in s.gScore)
    requires curr in s.gScore
    requires |path| > 0 && Last(path) == curr && path[0] !in s.cameFrom
    requires FollowsParents(s.cameFrom, path)
    ensures path[0] == start
    ensures IsPath(G, path, s.gScore[curr])
  {
    assert path[0] in s.gScore by {
      if |path| > 1 {
        assert s.cameFrom[path[1]] == path[0];
      }
    }
    assert !NeedsParent(s, start, path[0]);
    assert IsPath(G, path[..1], s.gScore[path[0]]);
    var j := 0;
    while j < |path| - 1
      invariant 0 <= j < |path|
      invariant path[j] in s.gScore
      invariant IsPath(G, path[..j + 1], s.gScore[path[j]])
    {
      assert TreeEdge(G, s, path[j + 1]);
      ExtendAlongParent(G, s, path, j);
      j := j + 1;
    }
    assert path[..j + 1] == path;
  }

  /** When the open list runs empty, the closed set contains `start` and is
      closed under edges, and holds no goal node; so no walk from `start`
      reaches a goal. */
  lemma NoGoalReachable<N(!new)>(G: Graph<N>, start: N, goal: N -> bool, U: set<N>, s: SearchState<N>,
                           rank: map<N, nat>)
    requires Consistent(G, start, U, s, rank)
    requires ExpandedExcept(G, s, None)
    requires forall n :: n in s.closed ==> !goal(n)
    requires |s.open| == 0
    ensures forall p, c :: IsPath(G, p, c) && p[0] == start ==> !goal(Last(p))
  {
    assert ClosedUnderEdges(G, s.closed) by {
      forall n, e | n in s.closed && e in G.outgoingEdges(n)
        ensures e.to in s.closed
      {
        assert e.to in s.gScore;
      }
    }
    forall p, c | IsPath(G, p, c) && p[0] == start
      ensures !goal(Last(p))
    {
      PathStaysIn(G, p, c, s.closed);
    }
  }
}

=== FILE: common.dfy ===
/** Small shared vocabulary: optional values, results that carry an error
    message (TypeScript's `throw "..."`), absolute value, and scores that may
    be infinite (TypeScript's `Infinity`). */
module Common {

  /** A value that may be absent (`null`/`undefined` in TypeScript). */
  datatype Option<+T> = None | Some(value: T)

  /** Either a value or the message the TypeScript code throws. */
  datatype Result<+T> = Ok(value: T) | Err(msg: string) {

    predicate IsFailure() {
      Err?
    }

    function PropagateFailure<U>(): Result<U>
      requires Err?
    {
      Err(msg)
    }

    function Extract(): T
      requires Ok?
    {
      value
    }
  }

  /** `Math.abs` on integers. */
  function Abs(x: int): nat {
    if x < 0 then -x else x
  }

  /** A non-negative number or `Infinity`. */
  datatype Score = Fin(n: nat) | Inf

  /** Strict `<` on scores; `Infinity < Infinity` is false. */
  predicate Below(a: Score, b: Score) {
    a.Fin? && (b.Inf? || a.n < b.n)
  }

  /** The last element of a non-empty sequence. */
  function Last<T>(s: seq<T>): T
    requires |s| > 0
  {
    s[|s| - 1]
  }
}

=== FILE: heuristics.dfy ===
/** Distance estimates used by the planner's search, one per relation of a
    goal literal. Each combines how far the arm or two objects are apart
    (in columns) with how many objects sit on top of an object, each of
    which costs `ActionsPerObjectAbove` actions to remove. */
module Heuristics {
  import opened Common
  import opened World
  import opened Interpreter

  /** Actions needed to move one object off a column. */
  const ActionsPerObjectAbove: nat := 3

  /** `k` lies in some column. */
  predicate InSomeStack(w: WorldState, k: string) {
    FindStackIndex(k, w) >= 0
  }

  /** `k` is the topmost key of column `i` and occurs there only once
      (there is nothing above it). */
  predicate TopOfColumn(w: WorldState, k: string, i: int) {
    && 0 <= i < |w.stacks|
    && |w.stacks[i]| > 0
    && Last(w.stacks[i]) == k
    && k !in w.stacks[i][..|w.stacks[i]| - 1]
  }

  /** The number of keys above the first occurrence of `key` in `stack`;
      all of `stack` when `key` is not in it. */
  function ObjectsAboveKey(key: string, stack: seq<string>): (r: int)
    ensures key in stack ==> 0 <= r < |stack|
    ensures key in stack ==> stack[|stack| - 1 - r] == key && key !in stack[..|stack| - 1 - r]
    ensures key !in stack ==> r == |stack|
  {
    (|stack| - 1) - Find(key, Some(stack))
  }

  /** The actions needed to uncover `key` in column `i`. */
  function UncoverCost(w: WorldState, key: string, i: int): int
    requires 0 <= i < |w.stacks|
  {
    ObjectsAboveKey(key, w.stacks[i]) * ActionsPerObjectAbove
  }

  lemma UncoverCostBounds(w: WorldState, key: string, i: int)
    requires 0 <= i < |w.stacks|
    ensures UncoverCost(w, key, i) >= 0
    ensures key in w.stacks[i] ==> (UncoverCost(w, key, i) == 0 <==> TopOfColumn(w, key, i))
  {
    var s := w.stacks[i];
    if key in s && ObjectsAboveKey(key, s) == 0 {
      assert s[|s| - 1] == key;
    }
  }

  /** Cost of reaching column `index` from column `i` and clearing it. */
  function FloorCost(w: WorldState, index: int, i: int): nat
    requires 0 <= i < |w.stacks|
  {
    |w.stacks[i]| + Abs(i - index)
  }

  /** The loop of `findClosestFloor` over the first `n` columns: the least
      floor cost among them, the earliest on ties, `Infinity` for none. */
  function ClosestFloorUpTo(w: WorldState, index: int, n: nat): (r: Score)
    requires n <= |w.stacks|
    ensures r.Inf? <==> n == 0
    ensures r.Fin? ==> exists i :: 0 <= i < n && r.n == FloorCost(w, index, i)
    ensures r.Fin? ==> forall i :: 0 <= i < n ==> r.n <= FloorCost(w, index, i)
  {
    if n == 0 then Inf
    else
      var best := ClosestFloorUpTo(w, index, n - 1);
      var curr := FloorCost(w, index, n - 1);
      if Below(Fin(curr), best) then Fin(curr) else best
  }

  /** The least, over all columns, of the objects to remove there plus the
      distance from column `index`: the cost of freeing some floor spot. */
  function FindClosestFloor(index: int, w: WorldState): (r: Score)
    ensures r.Inf? <==> |w.stacks| == 0
    ensures r.Fin? ==> exists i :: 0 <= i < |w.stacks| && r.n == FloorCost(w, index, i)
    ensures r.Fin? ==> forall i :: 0 <= i < |w.stacks| ==> r.n <= FloorCost(w, index, i)
    ensures 0 <= index < |w.stacks| ==> r.Fin? && r.n <= |w.stacks[index]|
  {
    var r := ClosestFloorUpTo(w, index, |w.stacks|);
    assert 0 <= index < |w.stacks| ==> FloorCost(w, index, index) == |w.stacks[index]|;
    r
  }

  /** Freeing a floor spot costs nothing exactly when column `index`
      exists and is already empty. */
  lemma ClosestFloorZero(index: int, w: WorldState)
    ensures FindClosestFloor(index, w) == Fin(0) <==> 0 <= index < |w.stacks| && |w.stacks[index]| == 0
  {
    if FindClosestFloor(index, w) == Fin(0) {
      var i :| 0 <= i < |w.stacks| && 0 == FloorCost(w, index, i);
      assert i == index;
    }
  }

  /** Moves of the arm to the column of `key` plus the actions to uncover
      it. */
  function DistanceToKey(key: string, w: WorldState): (r: int)
    requires InSomeStack(w, key)
    ensures r >= Abs(w.arm - FindStackIndex(key, w))
    ensures r == 0 <==> w.arm == FindStackIndex(key, w) && TopOfColumn(w, key, w.arm)
  {
    var stackIndex := FindStackIndex(key, w);
    UncoverCostBounds(w, key, stackIndex);
    Abs(w.arm - stackIndex) + UncoverCost(w, key, stackIndex)
  }

  // ---------------------------------------------------------------------
  // When each heuristic is defined: every column it looks into exists.

  predicate HoldingDefined(lit: Literal, w: WorldState) {
    |lit.args| >= 1 && (Held(w, lit.args[0]) || InSomeStack(w, lit.args[0]))
  }

  predicate BesideDefined(lit: Literal, w: WorldState) {
    && |lit.args| >= 2
    && (Held(w, lit.args[0]) || Held(w, lit.args[1]) || (InSomeStack(w, lit.args[0]) && InSomeStack(w, lit.args[1])))
  }

  predicate LeftOfDefined(lit: Literal, w: WorldState) {
    && |lit.args| >= 2
    && (Held(w, lit.args[0]) || Held(w, lit.args[1]) || InSomeStack(w, lit.args[0]) || FindStackIndex(lit.args[1], w) == 0)
  }

  predicate RightOfDefined(lit: Literal, w: WorldState) {
    |lit.args| >= 2 && (Held(w, lit.args[0]) || Held(w, lit.args[1]) || InSomeStack(w, lit.args[1]))
  }

  predicate AboveDefined(lit: Literal, w: WorldState) {
    |lit.args| >= 2 && (Held(w, lit.args[0]) || InSomeStack(w, lit.args[0]))
  }

  /** Every case but the floor with the object held needs the columns of
      the keys it measures. */
  predicate InsideOrOntopOrBelowDefined(lit: Literal, w: WorldState) {
    && |lit.args| >= 2
    && var startKey, goalKey := lit.args[0], lit.args[1];
       if goalKey == Floor then Held(w, startKey) || InSomeStack(w, startKey)
       else if Held(w, goalKey) then InSomeStack(w, startKey)
       else if Held(w, startKey) then InSomeStack(w, goalKey)
       else InSomeStack(w, startKey) && InSomeStack(w, goalKey)
  }

  // ---------------------------------------------------------------------
  // The heuristics

  /** holding(k): zero when `k` is held, otherwise the distance to `k`. It
      is zero exactly when `k` is held or the arm is over `k` with nothing
      on it. */
  function HoldingHeuristic(lit: Literal, w: WorldState): (r: int)
    requires HoldingDefined(lit, w)
    ensures r >= 0
    ensures Held(w, lit.args[0]) ==> r == 0
    ensures !Held(w, lit.args[0]) ==>
      r == Abs(w.arm - FindStackIndex(lit.args[0], w)) + UncoverCost(w, lit.args[0], FindStackIndex(lit.args[0], w))
    ensures r == 0 <==> Held(w, lit.args[0]) || (w.arm == FindStackIndex(lit.args[0], w) && TopOfColumn(w, lit.args[0], w.arm))
  {
    var key := lit.args[0];
    if Held(w, key) then 0
    else DistanceToKey(key, w)
  }

  /** beside(k1, k2): how far the two columns are from being adjacent, plus
      (when neither is held) the cheaper of uncovering either key. */
  function BesideHeuristic(lit: Literal, w: WorldState): (r: int)
    requires BesideDefined(lit, w)
    ensures r >= Abs(Abs(FindStackIndex(lit.args[1], w) - FindStackIndex(lit.args[0], w)) - 1)
    ensures Held(w, lit.args[0]) || Held(w, lit.args[1]) ==>
      r == Abs(Abs(FindStackIndex(lit.args[1], w) - FindStackIndex(lit.args[0], w)) - 1)
    ensures !Held(w, lit.args[0]) && !Held(w, lit.args[1]) ==>
      var i1, i2 := FindStackIndex(lit.args[0], w), FindStackIndex(lit.args[1], w);
      (r == 0 <==> Beside(w, lit.args[0], i1, lit.args[1], i2) && (TopOfColumn(w, lit.args[0], i1) || TopOfColumn(w, lit.args[1], i2)))
  {
    var key1, key2 := lit.args[0], lit.args[1];
    var key1StackIndex := FindStackIndex(key1, w);
    var key2StackIndex := FindStackIndex(key2, w);
    var distance := Abs(Abs(key2StackIndex - key1StackIndex) - 1);
    if Held(w, key1) || Held(w, key2) then distance
    else
      UncoverCostBounds(w, key1, key1StackIndex);
      UncoverCostBounds(w, key2, key2StackIndex);
      distance + Min(UncoverCost(w, key1, key1StackIndex), UncoverCost(w, key2, key2StackIndex))
  }

  function Min(a: int, b: int): int {
    if a <= b then a else b
  }

  /** leftof(k1, k2), as written: with a key held, the arm's distance to
      the other key's column; otherwise zero when k2's column is left of
      k1's. */
  function LeftOfHeuristic(lit: Literal, w: WorldState): (r: int)
    requires LeftOfDefined(lit, w)
    ensures r >= 0
    ensures Held(w, lit.args[0]) ==> r == Abs(w.arm - FindStackIndex(lit.args[1], w))
    ensures !Held(w, lit.args[0]) && Held(w, lit.args[1]) ==> r == Abs(w.arm - FindStackIndex(lit.args[0], w))
    ensures !Held(w, lit.args[0]) && !Held(w, lit.args[1]) && FindStackIndex(lit.args[1], w) < FindStackIndex(lit.args[0], w)
      ==> r == 0
  {
    var key1, key2 := lit.args[0], lit.args[1];
    if Held(w, key1) then Abs(w.arm - FindStackIndex(key2, w))
    else if Held(w, key2) then Abs(w.arm - FindStackIndex(key1, w))
    else
      var key1StackIndex := FindStackIndex(key1, w);
      var key2StackIndex := FindStackIndex(key2, w);
      var distance := Abs(key2StackIndex - key1StackIndex);
      if key2StackIndex < key1StackIndex then 0
      else if key2StackIndex == 0 then
        UncoverCostBounds(w, key2, key2StackIndex);
        UncoverCost(w, key2, key2StackIndex) + distance
      else
        assert key1StackIndex >= 0;
        UncoverCostBounds(w, key1, key1StackIndex);
        UncoverCostBounds(w, key2, key2StackIndex);
        distance + Min(ObjectsAboveKey(key1, w.stacks[key1StackIndex]),
                       ObjectsAboveKey(key2, w.stacks[key2StackIndex])) * ActionsPerObjectAbove
  }

  /** rightof(k1, k2), as written: with a key held, the arm's distance to
      the other key's column; otherwise zero when k2's column is right of
      k1's. */
  function RightOfHeuristic(lit: Literal, w: WorldState): (r: int)
    requires RightOfDefined(lit, w)
    ensures r >= 0
    ensures Held(w, lit.args[0]) ==> r == Abs(w.arm - FindStackIndex(lit.args[1], w))
    ensures !Held(w, lit.args[0]) && Held(w, lit.args[1]) ==> r == Abs(w.arm - FindStackIndex(lit.args[0], w))
    ensures !Held(w, lit.args[0]) && !Held(w, lit.args[1]) && FindStackIndex(lit.args[1], w) > FindStackIndex(lit.args[0], w)
      ==> r == 0
  {
    var key1, key2 := lit.args[0], lit.args[1];
    if Held(w, key1) then Abs(w.arm - FindStackIndex(key2, w))
    else if Held(w, key2) then Abs(w.arm - FindStackIndex(key1, w))
    else
      var key1StackIndex := FindStackIndex(key1, w);
      var key2StackIndex := FindStackIndex(key2, w);
      var distance := Abs(key2StackIndex - key1StackIndex);
      if key2StackIndex > key1StackIndex then 0
      else if key2StackIndex == |w.stacks| - 1 then
        UncoverCostBounds(w, key2, key2StackIndex);
        UncoverCost(w, key2, key2StackIndex) + distance
      else
        UncoverCostBounds(w, key1, key1StackIndex);
        UncoverCostBounds(w, key2, key2StackIndex);
        distance + Min(ObjectsAboveKey(key1, w.stacks[key1StackIndex]),
                       ObjectsAboveKey(key2, w.stacks[key2StackIndex])) * ActionsPerObjectAbove
  }

  /** above(k1, k2): the arm's distance to k2's column when k1 is held;
      otherwise the distance between the columns (or from the arm when k2
      is held) plus the actions to uncover k1. */
  function AboveHeuristic(lit: Literal, w: WorldState): (r: int)
    requires AboveDefined(lit, w)
    ensures r >= 0
    ensures Held(w, lit.args[0]) ==> r == Abs(w.arm - FindStackIndex(lit.args[1], w))
    ensures !Held(w, lit.args[0]) ==> r >= UncoverCost(w, lit.args[0], FindStackIndex(lit.args[0], w))
    ensures Held(w, lit.args[0]) ==> (r == 0 <==> w.arm == FindStackIndex(lit.args[1], w))
    ensures !Held(w, lit.args[0]) && Held(w, lit.args[1]) ==>
      (r == 0 <==> w.arm == FindStackIndex(lit.args[0], w) && TopOfColumn(w, lit.args[0], w.arm))
    ensures !Held(w, lit.args[0]) && !Held(w, lit.args[1]) ==>
      var i1, i2 := FindStackIndex(lit.args[0], w), FindStackIndex(lit.args[1], w);
      (r == 0 <==> i1 == i2 && TopOfColumn(w, lit.args[0], i1))
  {
    var key1, key2 := lit.args[0], lit.args[1];
    if Held(w, key1) then Abs(w.arm - FindStackIndex(key2, w))
    else
      var key1StackIndex := FindStackIndex(key1, w);
      UncoverCostBounds(w, key1, key1StackIndex);
      if Held(w, key2) then
        Abs(w.arm - FindStackIndex(key1, w)) + UncoverCost(w, key1, key1StackIndex)
      else
        var key2StackIndex := FindStackIndex(key2, w);
        var distance := Abs(key2StackIndex - key1StackIndex);
        distance + UncoverCost(w, key1, key1StackIndex)
  }

  /** inside/ontop/under(start, goal). To the floor: the cost of freeing
      the closest floor spot (from the arm when start is held, otherwise
      from start's column after reaching and uncovering start), infinite
      in a world without columns. With one key held: reaching and
      uncovering the other. Otherwise: uncovering both, plus the distance
      between them and from the arm to start. */
  function InsideOrOntopOrBelowHeuristic(lit: Literal, w: WorldState): (r: Score)
    requires InsideOrOntopOrBelowDefined(lit, w)
    ensures r.Inf? <==> lit.args[1] == Floor && Held(w, lit.args[0]) && |w.stacks| == 0
    ensures lit.args[1] == Floor && Held(w, lit.args[0]) ==> r == FindClosestFloor(w.arm, w)
    ensures lit.args[1] == Floor && !Held(w, lit.args[0]) ==>
      r.Fin? && r.n >= FindClosestFloor(FindStackIndex(lit.args[0], w), w).n
    ensures lit.args[1] != Floor && !Held(w, lit.args[0]) && !Held(w, lit.args[1]) ==>
      var startKeyIndex := FindStackIndex(lit.args[0], w);
      var goalKeyIndex := FindStackIndex(lit.args[1], w);
      r == Fin(UncoverCost(w, lit.args[0], startKeyIndex) + UncoverCost(w, lit.args[1], goalKeyIndex)
               + Abs(startKeyIndex - goalKeyIndex) + Abs(w.arm - startKeyIndex))
  {
    var startKey, goalKey := lit.args[0], lit.args[1];
    if goalKey == Floor then
      if Held(w, startKey) then
        FindClosestFloor(w.arm, w)
      else
        var startKeyIndex := FindStackIndex(startKey, w);
        var distanceToGoal := FindClosestFloor(startKeyIndex, w).n;
        UncoverCostBounds(w, startKey, startKeyIndex);
        Fin(Abs(w.arm - startKeyIndex) + UncoverCost(w, startKey, startKeyIndex) + distanceToGoal)
    else if Held(w, goalKey) then
      var startKeyIndex := FindStackIndex(startKey, w);
      UncoverCostBounds(w, startKey, startKeyIndex);
      Fin(Abs(startKeyIndex - w.arm) + UncoverCost(w, startKey, startKeyIndex))
    else if Held(w, startKey) then
      var goalKeyIndex := FindStackIndex(goalKey, w);
      UncoverCostBounds(w, goalKey, goalKeyIndex);
      Fin(Abs(goalKeyIndex - w.arm) + UncoverCost(w, goalKey, goalKeyIndex))
    else
      var startKeyIndex := FindStackIndex(startKey, w);
      var goalKeyIndex := FindStackIndex(goalKey, w);
      UncoverCostBounds(w, startKey, startKeyIndex);
      UncoverCostBounds(w, goalKey, goalKeyIndex);
      var objectsAboveStart := UncoverCost(w, startKey, startKeyIndex);
      var objectsAboveGoal := UncoverCost(w, goalKey, goalKeyIndex);
      var distanceBetweenStartAndGoal := Abs(startKeyIndex - goalKeyIndex);
      var distanceBetweenArmAndStart := Abs(w.arm - startKeyIndex);
      Fin(objectsAboveStart + objectsAboveGoal + distanceBetweenStartAndGoal + distanceBetweenArmAndStart)
  }

  /** When the on/in/under estimate is zero. To the floor with the object
      held: exactly when the arm's column is empty. To the floor
      otherwise: never, since the object's own column is not empty. With
      one key held: exactly when the arm is over the other key and nothing
      is on it. With neither held: only for a key and itself, uncovered
      under the arm; so it is positive whenever two different keys are
      related. */
  lemma InsideOrOntopOrBelowZero(lit: Literal, w: WorldState)
    requires InsideOrOntopOrBelowDefined(lit, w)
    ensures var r := InsideOrOntopOrBelowHeuristic(lit, w);
      lit.args[1] == Floor && Held(w, lit.args[0]) ==>
      (r == Fin(0) <==> w.arm < |w.stacks| && |w.stacks[w.arm]| == 0)
    ensures var r := InsideOrOntopOrBelowHeuristic(lit, w);
      lit.args[1] == Floor && !Held(w, lit.args[0]) ==> r.Fin? && r.n > 0
    ensures var r := InsideOrOntopOrBelowHeuristic(lit, w);
      lit.args[1] != Floor && Held(w, lit.args[1]) ==>
      (r == Fin(0) <==> w.arm == FindStackIndex(lit.args[0], w) && TopOfColumn(w, lit.args[0], w.arm))
    ensures var r := InsideOrOntopOrBelowHeuristic(lit, w);
      lit.args[1] != Floor && !Held(w, lit.args[1]) && Held(w, lit.args[0]) ==>
      (r == Fin(0) <==> w.arm == FindStackIndex(lit.args[1], w) && TopOfColumn(w, lit.args[1], w.arm))
    ensures var r := InsideOrOntopOrBelowHeuristic(lit, w);
      lit.args[1] != Floor && !Held(w, lit.args[0]) && !Held(w, lit.args[1]) ==>
      (r == Fin(0) <==> && w.arm == FindStackIndex(lit.args[0], w) && w.arm == FindStackIndex(lit.args[1], w)
                        && TopOfColumn(w, lit.args[0], w.arm) && lit.args[0] == lit.args[1])
  {
    var startKey, goalKey := lit.args[0], lit.args[1];
    if goalKey == Floor {
      if Held(w, startKey) {
        ClosestFloorZero(w.arm, w);
      } else {
        ClosestFloorZero(FindStackIndex(startKey, w), w);
      }
    } else if Held(w, goalKey) {
      UncoverCostBounds(w, startKey, FindStackIndex(startKey, w));
    } else if Held(w, startKey) {
      UncoverCostBounds(w, goalKey, FindStackIndex(goalKey, w));
    } else {
      var i, j := FindStackIndex(startKey, w), FindStackIndex(goalKey, w);
      UncoverCostBounds(w, startKey, i);
      UncoverCostBounds(w, goalKey, j);
      assert TopOfColumn(w, startKey, i) && TopOfColumn(w, goalKey, j) && i == j ==> startKey == goalKey;
    }
  }

  // ---------------------------------------------------------------------
  // The left-of and right-of estimates test the wrong side

  /** As written, the left-of estimate is positive on every state where
      k1 is already left of k2 (and neither is held). */
  lemma LeftOfHeuristicPositiveWhenSatisfied(lit: Literal, w: WorldState)
    requires |lit.args| >= 2
    requires !Held(w, lit.args[0]) && !Held(w, lit.args[1])
    requires LeftOf(lit.args[0], FindStackIndex(lit.args[0], w), lit.args[1], FindStackIndex(lit.args[1], w))
    ensures LeftOfDefined(lit, w)
    ensures LeftOfHeuristic(lit, w) >= 1
  {
    var i1, i2 := FindStackIndex(lit.args[0], w), FindStackIndex(lit.args[1], w);
    UncoverCostBounds(w, lit.args[0], i1);
    UncoverCostBounds(w, lit.args[1], i2);
  }

  /** As written, the right-of estimate is positive on every state where
      k1 is already right of k2 (and neither is held). */
  lemma RightOfHeuristicPositiveWhenSatisfied(lit: Literal, w: WorldState)
    requires |lit.args| >= 2
    requires !Held(w, lit.args[0]) && !Held(w, lit.args[1])
    requires RightOf(lit.args[0], FindStackIndex(lit.args[0], w), lit.args[1], FindStackIndex(lit.args[1], w))
    ensures RightOfDefined(lit, w)
    ensures RightOfHeuristic(lit, w) >= 1
  {
    var i1, i2 := FindStackIndex(lit.args[0], w), FindStackIndex(lit.args[1], w);
    UncoverCostBounds(w, lit.args[0], i1);
    UncoverCostBounds(w, lit.args[1], i2);
  }

  /** A concrete world: a in column 0, b in column 1, nothing held. */
  const TwoColumns: WorldState := WorldState(
    [["a"], ["b"]], None, 0,
    map["a" := Obj("ball", "small", "white"), "b" := Obj("box", "large", "red")])

  /** In that world a is left of b, yet the left-of estimate for
      leftof(a, b) is 1, and the right-of estimate for rightof(b, a),
      also already true, is 1. */
  lemma SwappedGuardCounterexample()
    ensures LeftOf("a", FindStackIndex("a", TwoColumns), "b", FindStackIndex("b", TwoColumns))
    ensures LeftOfHeuristic(Literal(true, "leftof", ["a", "b"]), TwoColumns) == 1
    ensures RightOf("b", FindStackIndex("b", TwoColumns), "a", FindStackIndex("a", TwoColumns))
    ensures RightOfHeuristic(Literal(true, "rightof", ["b", "a"]), TwoColumns) == 1
  {
    var w := TwoColumns;
    assert "a" in w.stacks[0];
    assert "b" !in w.stacks[0] && "b" in w.stacks[1];
    assert FindStackIndex("a", w) == 0;
    assert FindStackIndex("b", w) == 1;
    assert Find("a", Some(w.stacks[0])) == 0;
    assert Find("b", Some(w.stacks[1])) == 0;
  }

  /** The corrected left-of estimate reads the columns the as-written
      right-of estimate reads. */
  predicate LeftOfCorrectedDefined(lit: Literal, w: WorldState) {
    RightOfDefined(lit, w)
  }

  predicate RightOfCorrectedDefined(lit: Literal, w: WorldState) {
    && |lit.args| >= 2
    && (|| Held(w, lit.args[0]) || Held(w, lit.args[1]) || InSomeStack(w, lit.args[0])
        || (InSomeStack(w, lit.args[1]) && FindStackIndex(lit.args[1], w) == |w.stacks| - 1))
  }

  /** leftof(k1, k2) with the guard on the intended side: zero once k1's
      column is left of k2's; otherwise, when k2 is in the leftmost column
      it must be uncovered and moved, else one of the two is uncovered. */
  function LeftOfHeuristicCorrected(lit: Literal, w: WorldState): (r: int)
    requires LeftOfCorrectedDefined(lit, w)
    ensures r >= 0
    ensures Held(w, lit.args[0]) ==> r == Abs(w.arm - FindStackIndex(lit.args[1], w))
    ensures (&& !Held(w, lit.args[0]) && !Held(w, lit.args[1])
             && LeftOf(lit.args[0], FindStackIndex(lit.args[0], w), lit.args[1], FindStackIndex(lit.args[1], w)))
      ==> r == 0
  {
    var key1, key2 := lit.args[0], lit.args[1];
    if Held(w, key1) then Abs(w.arm - FindStackIndex(key2, w))
    else if Held(w, key2) then Abs(w.arm - FindStackIndex(key1, w))
    else
      var key1StackIndex := FindStackIndex(key1, w);
      var key2StackIndex := FindStackIndex(key2, w);
      var distance := Abs(key2StackIndex - key1StackIndex);
      if key1StackIndex < key2StackIndex then 0
      else if key2StackIndex == 0 then
        UncoverCostBounds(w, key2, key2StackIndex);
        UncoverCost(w, key2, key2StackIndex) + distance
      else
        UncoverCostBounds(w, key1, key1StackIndex);
        UncoverCostBounds(w, key2, key2StackIndex);
        distance + Min(ObjectsAboveKey(key1, w.stacks[key1StackIndex]),
                       ObjectsAboveKey(key2, w.stacks[key2StackIndex])) * ActionsPerObjectAbove
  }

  /** rightof(k1, k2) with the guard on the intended side. */
  function RightOfHeuristicCorrected(lit: Literal, w: WorldState): (r: int)
    requires RightOfCorrectedDefined(lit, w)
    ensures r >= 0
    ensures Held(w, lit.args[0]) ==> r == Abs(w.arm - FindStackIndex(lit.args[1], w))
    ensures (&& !Held(w, lit.args[0]) && !Held(w, lit.args[1])
             && RightOf(lit.args[0], FindStackIndex(lit.args[0], w), lit.args[1], FindStackIndex(lit.args[1], w)))
      ==> r == 0
  {
    var key1, key2 := lit.args[0], lit.args[1];
    if Held(w, key1) then Abs(w.arm - FindStackIndex(key2, w))
    else if Held(w, key2) then Abs(w.arm - FindStackIndex(key1, w))
    else
      var key1StackIndex := FindStackIndex(key1, w);
      var key2StackIndex := FindStackIndex(key2, w);
      var distance := Abs(key2StackIndex - key1StackIndex);
      if key1StackIndex > key2StackIndex then 0
      else if key2StackIndex == |w.stacks| - 1 then
        UncoverCostBounds(w, key2, key2StackIndex);
        UncoverCost(w, key2, key2StackIndex) + distance
      else
        UncoverCostBounds(w, key1, key1StackIndex);
        UncoverCostBounds(w, key2, key2StackIndex);
        distance + Min(ObjectsAboveKey(key1, w.stacks[key1StackIndex]),
                       ObjectsAboveKey(key2, w.stacks[key2StackIndex])) * ActionsPerObjectAbove
  }

  /** The corrected estimates vanish on every state where their relation
      holds, as a distance to a goal must, while the ones as written do
      not. */
  lemma CorrectedEstimatesVanishOnGoal(lit: Literal, w: WorldState)
    requires |lit.args| >= 2
    requires !Held(w, lit.args[0]) && !Held(w, lit.args[1])
    ensures LeftOf(lit.args[0], FindStackIndex(lit.args[0], w), lit.args[1], FindStackIndex(lit.args[1], w)) ==>
      LeftOfCorrectedDefined(lit, w) && LeftOfHeuristicCorrected(lit, w) == 0 && LeftOfHeuristic(lit, w) > 0
    ensures RightOf(lit.args[0], FindStackIndex(lit.args[0], w), lit.args[1], FindStackIndex(lit.args[1], w)) ==>
      RightOfCorrectedDefined(lit, w) && RightOfHeuristicCorrected(lit, w) == 0 && RightOfHeuristic(lit, w) > 0
  {
    var i1, i2 := FindStackIndex(lit.args[0], w), FindStackIndex(lit.args[1], w);
    if LeftOf(lit.args[0], i1, lit.args[1], i2) {
      LeftOfHeuristicPositiveWhenSatisfied(lit, w);
    }
    if RightOf(lit.args[0], i1, lit.args[1], i2) {
      RightOfHeuristicPositiveWhenSatisfied(lit, w);
    }
  }
}

=== FILE: interpreter.dfy ===
/** The pure rules of the interpreter: locating keys in the columns of a
    world, the physical laws that say what may rest on or in what, the
    spatial relations between two objects, the check of a binary relation
    over candidate keys, and the filtering of candidate (object, target)
    pairs for a command. */
module Interpreter {
  import opened Common
  import opened World

  /** A relation that should hold among some objects (or "floor"). */
  datatype Literal = Literal(polarity: bool, relation: string, args: seq<string>)

  // ---------------------------------------------------------------------
  // Locating keys

  /** Scan of `s` from position `i` on for `needle`: the loop of `find`. */
  function FindFrom(needle: string, s: seq<string>, i: nat): (r: int)
    requires i <= |s|
    ensures r == -1 || i <= r < |s|
    ensures r == -1 <==> needle !in s[i..]
    ensures r >= 0 ==> s[r] == needle && needle !in s[i..r]
    decreases |s| - i
  {
    if i == |s| then -1
    else if s[i] == needle then i
    else
      var r := FindFrom(needle, s, i + 1);
      assert s[i..] == [s[i]] + s[i + 1..];
      assert r >= 0 ==> s[i..r] == [s[i]] + s[i + 1..r];
      r
  }

  /** Position of `needle` in `hayStack`: the first position holding it, or
      -1 when the sequence is missing or does not hold it. */
  function Find(needle: string, hayStack: Option<seq<string>>): (r: int)
    ensures hayStack.None? ==> r == -1
    ensures hayStack.Some? ==> -1 <= r < |hayStack.value|
    ensures hayStack.Some? ==> (r == -1 <==> needle !in hayStack.value)
    ensures hayStack.Some? && r >= 0 ==> hayStack.value[r] == needle && needle !in hayStack.value[..r]
  {
    match hayStack
    case None => -1
    case Some(s) =>
      assert s[0..] == s;
      FindFrom(needle, s, 0)
  }

  /** Scan of the columns from column `i` on for one containing `needle`. */
  function StackIndexFrom(needle: string, stacks: seq<seq<string>>, i: nat): (r: int)
    requires i <= |stacks|
    ensures r == -1 || i <= r < |stacks|
    ensures r == -1 <==> forall j :: i <= j < |stacks| ==> needle !in stacks[j]
    ensures r >= 0 ==> needle in stacks[r] && forall j :: i <= j < r ==> needle !in stacks[j]
    decreases |stacks| - i
  {
    if i == |stacks| then -1
    else if needle in stacks[i] then i
    else StackIndexFrom(needle, stacks, i + 1)
  }

  /** The first column containing `needle`, or -1 when no column does. */
  function FindStackIndex(needle: string, w: WorldState): (r: int)
    ensures -1 <= r < |w.stacks|
    ensures r == -1 <==> forall j :: 0 <= j < |w.stacks| ==> needle !in w.stacks[j]
    ensures r >= 0 ==> needle in w.stacks[r] && forall j :: 0 <= j < r ==> needle !in w.stacks[j]
  {
    StackIndexFrom(needle, w.stacks, 0)
  }

  /** The keys of all columns, column after column, bottom to top. */
  function Flatten(stacks: seq<seq<string>>): (r: seq<string>)
    ensures forall k :: k in r <==> exists i :: 0 <= i < |stacks| && k in stacks[i]
  {
    if |stacks| == 0 then []
    else
      var rest := Flatten(stacks[1..]);
      assert forall k :: k in rest <==> exists i :: 1 <= i < |stacks| && k in stacks[i] by {
        forall k | k in rest
          ensures exists i :: 1 <= i < |stacks| && k in stacks[i]
        {
          var j :| 0 <= j < |stacks[1..]| && k in stacks[1..][j];
          assert k in stacks[j + 1];
        }
        forall k | exists i :: 1 <= i < |stacks| && k in stacks[i]
          ensures k in rest
        {
          var i :| 1 <= i < |stacks| && k in stacks[i];
          assert k in stacks[1..][i - 1];
        }
      }
      stacks[0] + rest
  }

  /** Every key of the world: the columns' keys, then the held key. */
  function AllRelevantKeys(w: WorldState): (r: seq<string>)
    ensures forall k :: k in r <==> (exists i :: 0 <= i < |w.stacks| && k in w.stacks[i]) || Held(w, k)
    ensures multiset(r) == multiset(Flatten(w.stacks)) + (if w.holding.Some? then multiset{w.holding.value} else multiset{})
  {
    Flatten(w.stacks) + (if w.holding.Some? then [w.holding.value] else [])
  }

  /** Replacing column `i` by `t` exchanges that column's keys for `t`'s in
      the multiset of all column keys. */
  lemma {:induction false} FlattenUpdate(stacks: seq<seq<string>>, i: nat, t: seq<string>)
    requires i < |stacks|
    ensures multiset(Flatten(stacks[i := t])) + multiset(stacks[i]) == multiset(Flatten(stacks)) + multiset(t)
    decreases |stacks|
  {
    if i == 0 {
      assert stacks[i := t][1..] == stacks[1..];
    } else {
      var u := stacks[i := t];
      assert u[1..] == stacks[1..][i - 1 := t];
      assert stacks[1..][i - 1] == stacks[i];
      FlattenUpdate(stacks[1..], i - 1, t);
      var a, b, d := multiset(stacks[0]), multiset(Flatten(u[1..])), multiset(Flatten(stacks[1..]));
      calc {
        multiset(Flatten(u)) + multiset(stacks[i]);
        (a + b) + multiset(stacks[i]);
        a + (b + multiset(stacks[i]));
        a + (d + multiset(t));
        (a + d) + multiset(t);
        multiset(Flatten(stacks)) + multiset(t);
      }
    }
  }

  // ---------------------------------------------------------------------
  // Physical laws

  /** The sizes in increasing order. */
  const Sizes: seq<string> := ["small", "medium", "large"]

  const UnknownSizePrefix: string := "Unkown size: "

  /** A message thrown for a size outside `Sizes`. */
  predicate IsSizeError(m: string) {
    |m| >= |UnknownSizePrefix| && m[..|UnknownSizePrefix|] == UnknownSizePrefix
  }

  /** The numeric value of a size: one more than its position in `Sizes`,
      so it grows with the size; any other size is an error. */
  function SizeToInt(size: string): (r: Result<int>)
    ensures r.Ok? <==> size in Sizes
    ensures r.Ok? ==> 1 <= r.value <= |Sizes| && Sizes[r.value - 1] == size
    ensures r.Err? ==> r.msg == UnknownSizePrefix + size && IsSizeError(r.msg)
  {
    if size == "large" then Ok(3)
    else if size == "medium" then Ok(2)
    else if size == "small" then Ok(1)
    else
      assert (UnknownSizePrefix + size)[..|UnknownSizePrefix|] == UnknownSizePrefix;
      Err(UnknownSizePrefix + size)
  }

  /** The numeric size of a known key whose size is valid. */
  function SizeOf(w: WorldState, k: string): int
    requires Known(w, k) && ObjectOf(w, k).size in Sizes
  {
    SizeToInt(ObjectOf(w, k).size).value
  }

  /** May `fk` rest directly on `sk` (not in a box)? A larger object never
      rests on a smaller one, nothing rests on a ball, a box does not rest
      on a pyramid of its own size, and a small box does not rest on a
      brick. */
  function CanPlaceOnTop(w: WorldState, fk: string, sk: string): (r: Result<bool>)
    requires Known(w, fk) && Known(w, sk)
    ensures r.Ok? <==> ObjectOf(w, fk).size in Sizes && ObjectOf(w, sk).size in Sizes
    ensures ObjectOf(w, fk).size !in Sizes ==> r == SizeToInt(ObjectOf(w, fk).size).PropagateFailure()
    ensures r.Err? ==> IsSizeError(r.msg)
    ensures r.Ok? ==>
      (r.value <==>
        && SizeOf(w, fk) <= SizeOf(w, sk)
        && ObjectOf(w, sk).form != "ball"
        && !(ObjectOf(w, fk).form == "box" && ObjectOf(w, sk).form == "pyramid" && SizeOf(w, fk) == SizeOf(w, sk))
        && !(ObjectOf(w, fk).form == "box" && ObjectOf(w, sk).form == "brick" && ObjectOf(w, fk).size == "small"))
  {
    var fSize :- SizeToInt(ObjectOf(w, fk).size);
    var sSize :- SizeToInt(ObjectOf(w, sk).size);
    var fForm := ObjectOf(w, fk).form;
    var sForm := ObjectOf(w, sk).form;
    if fSize > sSize || sForm == "ball" then Ok(false)
    else if fForm == "box" then
      if sForm == "pyramid" then Ok(sSize != fSize)
      else if sForm == "brick" && fSize == 1 then Ok(false)
      else Ok(true)
    else Ok(true)
  }

  /** May the box `boxKey` hold `objectKey`? Pyramids, planks and boxes must
      be strictly smaller than the box, balls at most as large, and no other
      form fits. */
  function BoxCanHoldObject(w: WorldState, boxKey: string, objectKey: string): (r: Result<bool>)
    requires Known(w, boxKey) && Known(w, objectKey)
    ensures r.Ok? <==> ObjectOf(w, boxKey).size in Sizes && ObjectOf(w, objectKey).size in Sizes
    ensures ObjectOf(w, boxKey).size !in Sizes ==> r == SizeToInt(ObjectOf(w, boxKey).size).PropagateFailure()
    ensures r.Err? ==> IsSizeError(r.msg)
    ensures r.Ok? ==>
      (r.value <==>
        || (ObjectOf(w, objectKey).form in {"pyramid", "plank", "box"} && SizeOf(w, objectKey) < SizeOf(w, boxKey))
        || (ObjectOf(w, objectKey).form == "ball" && SizeOf(w, objectKey) <= SizeOf(w, boxKey)))
  {
    var boxSize :- SizeToInt(ObjectOf(w, boxKey).size);
    var objectSize :- SizeToInt(ObjectOf(w, objectKey).size);
    var form := ObjectOf(w, objectKey).form;
    if form == "pyramid" || form == "plank" || form == "box" then Ok(boxSize > objectSize)
    else if form == "ball" then Ok(boxSize >= objectSize)
    else Ok(false)
  }

  /** May `key1` be put on or in `key2`? Always on the floor; into a box
      exactly when the box can hold it; a ball nowhere else; any other
      object wherever it may rest on top. */
  function CanPlaceOnTopOrInside(w: WorldState, key1: string, key2: string): (r: Result<bool>)
    requires Known(w, key1) && Known(w, key2)
    ensures key2 == Floor ==> r == Ok(true)
    ensures key2 != Floor && ObjectOf(w, key2).form == "box" ==>
      r == (if ObjectOf(w, key1).form != "floor" then BoxCanHoldObject(w, key2, key1) else Ok(false))
    ensures key2 != Floor && ObjectOf(w, key2).form != "box" && ObjectOf(w, key1).form == "ball" ==> r == Ok(false)
    ensures key2 != Floor && ObjectOf(w, key2).form != "box" && ObjectOf(w, key1).form != "ball" ==>
      r == CanPlaceOnTop(w, key1, key2)
    ensures r.Err? ==> IsSizeError(r.msg)
  {
    if key2 == Floor then Ok(true)
    else
      var onTop :- if ObjectOf(w, key1).form != "ball" && ObjectOf(w, key2).form != "box"
                   then CanPlaceOnTop(w, key1, key2) else Ok(false);
      if onTop then Ok(true)
      else if ObjectOf(w, key2).form == "box" && ObjectOf(w, key1).form != "floor" then BoxCanHoldObject(w, key2, key1)
      else Ok(false)
  }

  /** No placement puts an object on a ball, and a placement anywhere but on
      the floor puts an object on or in one at least as large; an object
      other than a ball only goes into a strictly larger box. */
  lemma PlacementRespectsSizes(w: WorldState, key1: string, key2: string)
    requires Known(w, key1) && Known(w, key2)
    requires key2 != Floor && CanPlaceOnTopOrInside(w, key1, key2) == Ok(true)
    ensures ObjectOf(w, key2).form != "ball"
    ensures ObjectOf(w, key1).size in Sizes && ObjectOf(w, key2).size in Sizes
    ensures SizeOf(w, key1) <= SizeOf(w, key2)
    ensures ObjectOf(w, key2).form == "box" && ObjectOf(w, key1).form != "ball" ==> SizeOf(w, key1) < SizeOf(w, key2)
    ensures ObjectOf(w, key1).form == "ball" ==> ObjectOf(w, key2).form == "box"
  {
  }

  // ---------------------------------------------------------------------
  // Spatial relations between two keys, given their columns (-1: none)

  predicate RightOf(key1: string, key1Ind: int, key2: string, key2Ind: int) {
    (key1Ind > -1 && key2Ind > -1) && key1Ind > key2Ind
  }

  predicate LeftOf(key1: string, key1Ind: int, key2: string, key2Ind: int) {
    (key1Ind > -1 && key2Ind > -1) && key1Ind < key2Ind
  }

  /** `key1` sits directly on `key2`, which is a box. */
  predicate Inside(w: WorldState, key1: string, key1Ind: int, key2: string, key2Ind: int)
    requires Known(w, key2)
  {
    && key1Ind > -1 && key2Ind > -1 && key1Ind == key2Ind
    && Find(key1, StackAt(w, key1Ind)) - 1 == Find(key2, StackAt(w, key1Ind))
    && ObjectOf(w, key2).form == "box"
  }

  /** `key1` sits directly on `key2`, or is at the bottom of its column when
      `key2` is the floor. */
  predicate Ontop(w: WorldState, key1: string, key1Ind: int, key2: string, key2Ind: int) {
    || (key2 == Floor && key1Ind > -1 && Find(key1, StackAt(w, key1Ind)) == 0)
    || (key1Ind > -1 && key2Ind > -1 && key1Ind == key2Ind
        && Find(key1, StackAt(w, key1Ind)) - 1 == Find(key2, StackAt(w, key1Ind)))
  }

  predicate Under(w: WorldState, key1: string, key1Ind: int, key2: string, key2Ind: int) {
    && (key1Ind > -1 && key2Ind > -1) && key1Ind == key2Ind
    && Find(key1, StackAt(w, key1Ind)) < Find(key2, StackAt(w, key2Ind))
  }

  predicate Beside(w: WorldState, key1: string, key1Ind: int, key2: string, key2Ind: int) {
    (key1Ind > -1 && key2Ind > -1) && (key1Ind == key2Ind - 1 || key1Ind == key2Ind + 1)
  }

  predicate Above(w: WorldState, key1: string, key1Ind: int, key2: string, key2Ind: int) {
    && (key1Ind > -1 && key2Ind > -1) && key1Ind == key2Ind
    && Find(key1, StackAt(w, key1Ind)) > Find(key2, StackAt(w, key2Ind))
  }

  /** A key outside every column stands in no relation, except that a key
      at the bottom of a column is on top of the floor (which is in no
      column). */
  lemma RelationsNeedColumns(w: WorldState, key1: string, i: int, key2: string, j: int)
    requires Known(w, key2)
    requires i == -1 || j == -1
    ensures !RightOf(key1, i, key2, j) && !LeftOf(key1, i, key2, j)
    ensures !Inside(w, key1, i, key2, j) && !Under(w, key1, i, key2, j)
    ensures !Beside(w, key1, i, key2, j) && !Above(w, key1, i, key2, j)
    ensures Ontop(w, key1, i, key2, j) ==> key2 == Floor && i > -1 && Find(key1, StackAt(w, i)) == 0
  {
  }

  /** The relations come in converse pairs: left-of/right-of and
      under/above swap their arguments, beside is symmetric and means
      adjacent columns, and being inside a box is a case of being on it. */
  lemma RelationConverses(w: WorldState, a: string, i: int, b: string, j: int)
    ensures LeftOf(a, i, b, j) <==> RightOf(b, j, a, i)
    ensures Under(w, a, i, b, j) <==> Above(w, b, j, a, i)
    ensures Beside(w, a, i, b, j) <==> Beside(w, b, j, a, i)
    ensures Beside(w, a, i, b, j) ==> i >= 0 && j >= 0 && Abs(i - j) == 1
    ensures Known(w, b) && Inside(w, a, i, b, j) ==> Ontop(w, a, i, b, j)
  {
  }

  /** The relation named `constraint` between `nk` and `ck`, with their
      columns looked up in `w`; an unknown name relates nothing. */
  predicate Related(w: WorldState, constraint: string, nk: string, ck: string)
    requires Known(w, ck)
  {
    var nkInd := FindStackIndex(nk, w);
    var ckInd := FindStackIndex(ck, w);
    if constraint == "rightof" then RightOf(nk, nkInd, ck, ckInd)
    else if constraint == "leftof" then LeftOf(nk, nkInd, ck, ckInd)
    else if constraint == "inside" then Inside(w, nk, nkInd, ck, ckInd)
    else if constraint == "ontop" then Ontop(w, nk, nkInd, ck, ckInd)
    else if constraint == "under" then Under(w, nk, nkInd, ck, ckInd)
    else if constraint == "beside" then Beside(w, nk, nkInd, ck, ckInd)
    else if constraint == "above" then Above(w, nk, nkInd, ck, ckInd)
    else false
  }

  /** The keys of `next` that stand in the relation to a fixed key `ck`. */
  function MatchesFor(w: WorldState, ck: string, next: seq<string>, constraint: string): (r: seq<string>)
    requires Known(w, ck)
    ensures forall x :: x in r <==> x in next && x != ck && Related(w, constraint, x, ck)
    ensures |r| <= |next|
  {
    if |next| == 0 then []
    else
      var nk := next[0];
      (if nk != ck && Related(w, constraint, nk, ck) then [nk] else [])
        + MatchesFor(w, ck, next[1..], constraint)
  }

  /** The keys of `next` that stand in the relation to some other key of
      `curr`, once per such pair, in the order of `curr` then `next`. */
  function CheckBinaryConstraint(w: WorldState, curr: seq<string>, next: seq<string>, constraint: string): (r: seq<string>)
    requires forall k :: k in curr ==> Known(w, k)
    ensures forall x :: x in r ==> x in next
    ensures forall x :: x in r <==> RelatedToSome(w, constraint, curr, next, x)
  {
    if |curr| == 0 then []
    else
      var first := MatchesFor(w, curr[0], next, constraint);
      var rest := CheckBinaryConstraint(w, curr[1..], next, constraint);
      assert forall x :: x in first + rest <==> RelatedToSome(w, constraint, curr, next, x) by {
        forall x | x in first + rest ensures RelatedToSome(w, constraint, curr, next, x) {
          if x in first {
            assert curr[0] in curr;
          } else {
            var ck :| ck in curr[1..] && ck != x && x in next && Related(w, constraint, x, ck);
            assert ck in curr;
          }
        }
        forall x | RelatedToSome(w, constraint, curr, next, x) ensures x in first + rest {
          var ck :| ck in curr && ck != x && x in next && Related(w, constraint, x, ck);
          if ck != curr[0] {
            assert ck in curr[1..];
          }
        }
      }
      first + rest
  }

  /** `x` is a key of `next` related to some other key of `curr`. */
  predicate RelatedToSome(w: WorldState, constraint: string, curr: seq<string>, next: seq<string>, x: string)
    requires forall k :: k in curr ==> Known(w, k)
  {
    exists ck :: ck in curr && ck != x && x in next && Related(w, constraint, x, ck)
  }

  // ---------------------------------------------------------------------
  // Filtering candidate pairs for a command

  const AlreadyTrueMsg: string := "This is already true"

  /** The relation already holds between `fk` and `sk`: checking it over the
      single candidates `[sk]` and `[fk]` yields one key. */
  predicate AlreadyTrue(w: WorldState, relation: string, fk: string, sk: string)
    requires Known(w, sk)
  {
    |CheckBinaryConstraint(w, [sk], [fk], relation)| == 1
  }

  lemma AlreadyTrueMeansRelated(w: WorldState, relation: string, fk: string, sk: string)
    requires Known(w, sk)
    ensures AlreadyTrue(w, relation, fk, sk) <==> fk != sk && Related(w, relation, fk, sk)
  {
    assert [sk][1..] == [];
    assert [fk][1..] == [];
    assert MatchesFor(w, sk, [fk], relation) == (if fk != sk && Related(w, relation, fk, sk) then [fk] else []);
    assert CheckBinaryConstraint(w, [sk], [fk], relation) == MatchesFor(w, sk, [fk], relation);
  }

  /** Whether the relation makes physical sense for the pair, per relation:
      on or in means `fk` may be placed on or in `sk`; above means neither
      is the floor and `sk` is not a ball; under means neither is the
      floor, `fk` is not a ball and `sk` may be placed on or in `fk`; the
      horizontal relations only exclude the floor; any other relation
      admits nothing. Only the placement check can fail. */
  function Admits(w: WorldState, relation: string, fk: string, sk: string): (r: Result<bool>)
    requires Known(w, fk) && Known(w, sk)
    ensures r.Err? ==> IsSizeError(r.msg)
    ensures r.Err? ==> relation in {"ontop", "inside", "under"}
    ensures relation == "ontop" || relation == "inside" ==> r == CanPlaceOnTopOrInside(w, fk, sk)
    ensures relation == "above" ==>
      r.Ok? && (r.value <==> ObjectOf(w, fk).form != "floor" && ObjectOf(w, sk).form != "floor" && ObjectOf(w, sk).form != "ball")
    ensures relation == "under" ==>
      (r == Ok(true) <==>
        && ObjectOf(w, fk).form != "floor" && ObjectOf(w, sk).form != "floor" && ObjectOf(w, fk).form != "ball"
        && CanPlaceOnTopOrInside(w, sk, fk) == Ok(true))
    ensures relation == "under" && r.Err? ==> r == CanPlaceOnTopOrInside(w, sk, fk)
    ensures relation in {"beside", "leftof", "rightof"} ==>
      r.Ok? && (r.value <==> ObjectOf(w, fk).form != "floor" && ObjectOf(w, sk).form != "floor")
    ensures relation !in {"ontop", "inside", "above", "under", "beside", "leftof", "rightof"} ==> r == Ok(false)
  {
    var fForm := ObjectOf(w, fk).form;
    var sForm := ObjectOf(w, sk).form;
    if relation == "ontop" || relation == "inside" then CanPlaceOnTopOrInside(w, fk, sk)
    else if relation == "above" then Ok(fForm != "floor" && sForm != "floor" && sForm != "ball")
    else if relation == "under" then
      if fForm != "floor" && sForm != "floor" && fForm != "ball" then CanPlaceOnTopOrInside(w, sk, fk)
      else Ok(false)
    else if relation == "beside" || relation == "leftof" || relation == "rightof" then
      Ok(fForm != "floor" && sForm != "floor")
    else Ok(false)
  }

  /** A pair the filter keeps: two different keys, the relation does not
      hold yet, and it makes physical sense. */
  predicate Accepted(w: WorldState, relation: string, fk: string, sk: string)
    requires Known(w, fk) && Known(w, sk)
  {
    fk != sk && !AlreadyTrue(w, relation, fk, sk) && Admits(w, relation, fk, sk) == Ok(true)
  }

  /** Every physical-sense check the filter makes succeeds. */
  predicate Evaluable(w: WorldState, relation: string, keys: seq<string>, keys2: seq<string>)
    requires forall k :: k in keys ==> Known(w, k)
    requires forall k :: k in keys2 ==> Known(w, k)
  {
    forall fk, sk :: fk in keys && sk in keys2 && fk != sk && !AlreadyTrue(w, relation, fk, sk) ==>
      Admits(w, relation, fk, sk).Ok?
  }

  /** The pairs kept and the combinations already true, in loop order. */
  datatype Scan = Scan(pairs: seq<(string, string)>, alreadyTrue: seq<(string, string)>)

  /** The inner loop of the filter: one source key against every target. */
  function ScanRow(w: WorldState, relation: string, fk: string, keys2: seq<string>): (r: Result<Scan>)
    requires Known(w, fk)
    requires forall k :: k in keys2 ==> Known(w, k)
    ensures r.Ok? <==> Evaluable(w, relation, [fk], keys2)
    ensures r.Err? ==> IsSizeError(r.msg)
    ensures r.Ok? ==> forall p :: p in r.value.pairs <==> p.0 == fk && p.1 in keys2 && Accepted(w, relation, fk, p.1)
    ensures r.Ok? ==> forall p :: p in r.value.alreadyTrue <==>
      p.1 == fk && p.0 in keys2 && p.0 != fk && AlreadyTrue(w, relation, fk, p.0)
  {
    if |keys2| == 0 then Ok(Scan([], []))
    else
      var sk := keys2[0];
      var head :-
        if sk == fk then Ok(Scan([], []))
        else if AlreadyTrue(w, relation, fk, sk) then Ok(Scan([], [(sk, fk)]))
        else
          var ok :- Admits(w, relation, fk, sk);
          Ok(Scan(if ok then [(fk, sk)] else [], []));
      var rest :- ScanRow(w, relation, fk, keys2[1..]);
      assert forall k :: k in keys2 <==> k == sk || k in keys2[1..];
      Ok(Scan(head.pairs + rest.pairs, head.alreadyTrue + rest.alreadyTrue))
  }

  /** The outer loop of the filter: every source key in turn. */
  function ScanAll(w: WorldState, relation: string, keys: seq<string>, keys2: seq<string>): (r: Result<Scan>)
    requires forall k :: k in keys ==> Known(w, k)
    requires forall k :: k in keys2 ==> Known(w, k)
    ensures r.Ok? <==> Evaluable(w, relation, keys, keys2)
    ensures r.Err? ==> IsSizeError(r.msg)
    ensures r.Ok? ==> forall p :: p in r.value.pairs <==> p.0 in keys && p.1 in keys2 && Accepted(w, relation, p.0, p.1)
    ensures r.Ok? ==> forall p :: p in r.value.alreadyTrue <==>
      p.1 in keys && p.0 in keys2 && p.0 != p.1 && AlreadyTrue(w, relation, p.1, p.0)
  {
    if |keys| == 0 then Ok(Scan([], []))
    else
      var fk := keys[0];
      assert forall k :: k in keys <==> k == fk || k in keys[1..];
      var row := ScanRow(w, relation, fk, keys2);
      if row.Err? then row
      else
        var rest :- ScanAll(w, relation, keys[1..], keys2);
        Ok(Scan(row.value.pairs + rest.pairs, row.value.alreadyTrue + rest.alreadyTrue))
  }

  /** A size error is never the "already true" message. */
  lemma SizeErrorIsNotAlreadyTrue(msg: string)
    requires IsSizeError(msg)
    ensures msg != AlreadyTrueMsg
  {
    assert AlreadyTrueMsg[1] != UnknownSizePrefix[1];
  }

  /** A scan that kept no pair accepts nothing, and one that also recorded
      no "already true" combination found none. */
  lemma EmptyScan(w: WorldState, relation: string, keys: seq<string>, keys2: seq<string>, scan: Scan)
    requires forall k :: k in keys ==> Known(w, k)
    requires forall k :: k in keys2 ==> Known(w, k)
    requires ScanAll(w, relation, keys, keys2) == Ok(scan) && |scan.pairs| == 0
    ensures forall fk, sk :: fk in keys && sk in keys2 ==> !Accepted(w, relation, fk, sk)
    ensures (exists fk, sk :: fk in keys && sk in keys2 && fk != sk && AlreadyTrue(w, relation, fk, sk))
      <==> |scan.alreadyTrue| > 0
  {
    forall fk, sk | fk in keys && sk in keys2 ensures !Accepted(w, relation, fk, sk) {
      assert (fk, sk) !in scan.pairs;
    }
    if |scan.alreadyTrue| > 0 {
      var q := scan.alreadyTrue[0];
      assert q in scan.alreadyTrue;
      assert q.1 in keys && q.0 in keys2 && q.1 != q.0 && AlreadyTrue(w, relation, q.1, q.0);
    } else {
      forall fk, sk | fk in keys && sk in keys2 && fk != sk ensures !AlreadyTrue(w, relation, fk, sk) {
        assert (sk, fk) !in scan.alreadyTrue;
      }
    }
  }

  /** The (object, target) pairs for which a command with this relation
      makes sense. Fails with "This is already true" when no pair is kept
      but some combination already satisfies the relation, and with the
      size error of the first check that throws one. */
  function FilterValidPairs(w: WorldState, keys: seq<string>, keys2: seq<string>, relation: string)
    : (r: Result<seq<(string, string)>>)
    requires forall k :: k in keys ==> Known(w, k)
    requires forall k :: k in keys2 ==> Known(w, k)
    ensures r.Ok? ==> forall p :: p in r.value ==>
      p.0 in keys && p.1 in keys2 && p.0 != p.1 && !AlreadyTrue(w, relation, p.0, p.1)
    ensures r.Ok? ==> forall p :: p in r.value ==> Admits(w, relation, p.0, p.1) == Ok(true)
    ensures r.Ok? && (relation == "ontop" || relation == "inside") ==>
      forall p :: p in r.value ==> CanPlaceOnTopOrInside(w, p.0, p.1) == Ok(true)
    ensures r.Ok? ==> forall fk, sk :: fk in keys && sk in keys2 && Accepted(w, relation, fk, sk) ==> (fk, sk) in r.value
    ensures r.Err? ==> r.msg == AlreadyTrueMsg || IsSizeError(r.msg)
    ensures Evaluable(w, relation, keys, keys2) <==> r.Ok? || r == Err(AlreadyTrueMsg)
    ensures Evaluable(w, relation, keys, keys2) ==>
      (r == Err(AlreadyTrueMsg) <==>
        && (forall fk, sk :: fk in keys && sk in keys2 ==> !Accepted(w, relation, fk, sk))
        && (exists fk, sk :: fk in keys && sk in keys2 && fk != sk && AlreadyTrue(w, relation, fk, sk)))
  {
    var all := ScanAll(w, relation, keys, keys2);
    if all.Err? then
      SizeErrorIsNotAlreadyTrue(all.msg);
      all.PropagateFailure()
    else
      var scan := all.value;
      if |scan.pairs| == 0 then
        EmptyScan(w, relation, keys, keys2, scan);
        if |scan.alreadyTrue| > 0 then Err(AlreadyTrueMsg) else Ok(scan.pairs)
      else
        var p := scan.pairs[0];
        assert p in scan.pairs;
        assert Accepted(w, relation, p.0, p.1);
        Ok(scan.pairs)
  }

  // ---------------------------------------------------------------------
  // Matching descriptions and printing literals

  /** Two descriptions match when each attribute is missing in one of
      them or equal in both; the form "anyform" matches every form. */
  predicate ObjectsConsideredEqual(o1: Obj, o2: Obj) {
    && (o1.form == "" || o2.form == "" || o1.form == "anyform" || o2.form == "anyform" || o1.form == o2.form)
    && (o1.color == "" || o2.color == "" || o1.color == o2.color)
    && (o1.size == "" || o2.size == "" || o1.size == o2.size)
  }

  /** Matching is symmetric and reflexive, a description with every
      attribute missing matches everything, and a match on fully specified
      attributes (no "anyform") is equality. */
  lemma ObjectsConsideredEqualProperties(o1: Obj, o2: Obj)
    ensures ObjectsConsideredEqual(o1, o2) <==> ObjectsConsideredEqual(o2, o1)
    ensures ObjectsConsideredEqual(o1, o1)
    ensures ObjectsConsideredEqual(Obj("", "", ""), o2)
    ensures (&& o1.form != "" && o1.color != "" && o1.size != "" && o1.form != "anyform"
             && o2.form != "" && o2.color != "" && o2.size != "" && o2.form != "anyform")
            ==> (ObjectsConsideredEqual(o1, o2) <==> o1 == o2)
  {
  }

  /** `xs.join(sep)`. */
  function Join(xs: seq<string>, sep: string): string {
    if |xs| == 0 then ""
    else if |xs| == 1 then xs[0]
    else xs[0] + sep + Join(xs[1..], sep)
  }

  /** The pieces of `s` between occurrences of `c` (always at least one). */
  function Split(s: string, c: char): (r: seq<string>)
    ensures |r| >= 1
    decreases |s|
  {
    if |s| == 0 then [""]
    else
      var rest := Split(s[1..], c);
      if s[0] == c then [""] + rest
      else [[s[0]] + rest[0]] + rest[1..]
  }

  /** The text form of a call, e.g. "ontop(a,floor)". */
  function CallText(relation: string, args: seq<string>): string {
    relation + "(" + Join(args, ",") + ")"
  }

  /** The text form of a literal, e.g. "-ontop(a,floor)". */
  function StringifyLiteral(lit: Literal): string {
    (if lit.polarity then "" else "-") + CallText(lit.relation, lit.args)
  }

  /** A literal whose text form can be read back: a relation name without
      parentheses or a leading '-', and at least one argument, none of
      which contains a comma or a parenthesis. */
  predicate Printable(lit: Literal) {
    && (forall i :: 0 <= i < |lit.relation| ==> lit.relation[i] != '(' && lit.relation[i] != ')')
    && (|lit.relation| > 0 ==> lit.relation[0] != '-')
    && |lit.args| >= 1
    && (forall a :: a in lit.args ==> ',' !in a && '(' !in a && ')' !in a)
  }

  /** The position of the first occurrence of `c` in `s`, or |s|. */
  function IndexOfChar(s: string, c: char): (r: nat)
    ensures r <= |s|
    ensures forall i :: 0 <= i < r ==> s[i] != c
    ensures r < |s| ==> s[r] == c
  {
    if |s| == 0 then 0
    else if s[0] == c then 0
    else 1 + IndexOfChar(s[1..], c)
  }

  /** Reads `relation(a1,...,an)` back into the relation and arguments. */
  function ParseCall(body: string): Option<(string, seq<string>)> {
    var open := IndexOfChar(body, '(');
    if open == |body| || body[|body| - 1] != ')' then None
    else Some((body[..open], Split(body[open + 1..|body| - 1], ',')))
  }

  /** Reads a literal back from its text form. */
  function ParseLiteral(s: string): Option<Literal> {
    if |s| == 0 then None
    else
      var polarity := s[0] != '-';
      match ParseCall(if polarity then s else s[1..])
      case None => None
      case Some(call) => Some(Literal(polarity, call.0, call.1))
  }

  lemma {:induction false} SplitJoin(xs: seq<string>, c: char)
    requires |xs| >= 1
    requires forall a :: a in xs ==> c !in a
    ensures Split(Join(xs, [c]), c) == xs
    decreases |xs|, if |xs| > 0 then |xs[0]| else 0
  {
    if |xs| == 1 {
      SplitNoSep(xs[0], c);
    } else {
      SplitJoin(xs[1..], c);
      SplitPrefix(xs[0], Join(xs[1..], [c]), c);
      assert xs == [xs[0]] + xs[1..];
    }
  }

  /** A string without the separator splits into itself. */
  lemma {:induction false} SplitNoSep(a: string, c: char)
    requires c !in a
    ensures Split(a, c) == [a]
    decreases |a|
  {
    if |a| > 0 {
      assert c !in a[1..] by {
        forall i | 0 <= i < |a[1..]| ensures a[1..][i] != c { assert a[1..][i] == a[i + 1]; }
      }
      SplitNoSep(a[1..], c);
      assert [a[0]] + a[1..] == a;
    }
  }

  /** Splitting `a + [c] + t`, with no separator in `a`, gives `a` and then
      the pieces of `t`. */
  lemma {:induction false} SplitPrefix(a: string, t: string, c: char)
    requires c !in a
    ensures Split(a + [c] + t, c) == [a] + Split(t, c)
    decreases |a|
  {
    var s := a + [c] + t;
    if |a| == 0 {
      assert s[0] == c;
      assert s[1..] == t;
    } else {
      assert c !in a[1..] by {
        forall i | 0 <= i < |a[1..]| ensures a[1..][i] != c { assert a[1..][i] == a[i + 1]; }
      }
      SplitPrefix(a[1..], t, c);
      assert s[1..] == a[1..] + [c] + t;
      assert [a[0]] + a[1..] == a;
    }
  }

  lemma ParseCallRoundTrip(lit: Literal)
    requires Printable(lit)
    ensures ParseCall(CallText(lit.relation, lit.args)) == Some((lit.relation, lit.args))
  {
    var joined := Join(lit.args, ",");
    var body := CallText(lit.relation, lit.args);
    var open := IndexOfChar(body, '(');
    assert body[|lit.relation|] == '(';
    assert forall i :: 0 <= i < |lit.relation| ==> body[i] == lit.relation[i];
    assert open == |lit.relation|;
    assert body[..open] == lit.relation;
    assert body[open + 1..|body| - 1] == joined;
    SplitJoin(lit.args, ',');
  }

  /** A sign prefix is read back off a call that does not start with '-'. */
  lemma ParseSigned(polarity: bool, body: string, call: (string, seq<string>))
    requires |body| > 0 && body[0] != '-' && ParseCall(body) == Some(call)
    ensures ParseLiteral((if polarity then "" else "-") + body) == Some(Literal(polarity, call.0, call.1))
  {
    var s := (if polarity then "" else "-") + body;
    if polarity {
      assert s == body;
    } else {
      assert s[1..] == body;
    }
  }

  /** The text form of a printable literal determines it: reading it back
      gives the literal, so different printable literals print
      differently. */
  lemma StringifyLiteralRoundTrip(lit: Literal)
    requires Printable(lit)
    ensures ParseLiteral(StringifyLiteral(lit)) == Some(lit)
  {
    var body := CallText(lit.relation, lit.args);
    ParseCallRoundTrip(lit);
    assert body[0] != '-' by {
      if |lit.relation| > 0 { assert body[0] == lit.relation[0]; } else { assert body[0] == '('; }
    }
    ParseSigned(lit.polarity, body, (lit.relation, lit.args));
  }

  lemma StringifyLiteralInjective(a: Literal, b: Literal)
    requires Printable(a) && Printable(b)
    requires StringifyLiteral(a) == StringifyLiteral(b)
    ensures a == b
  {
    StringifyLiteralRoundTrip(a);
    StringifyLiteralRoundTrip(b);
  }
}

=== FILE: world.dfy ===
/** The world state the planner works on: columns of object keys (bottom to
    top), the column of the arm, the key of the held object if any, and the
    attributes of every object. */
module World {
  import opened Common

  /** Attributes of an object. In a description built by the parser an
      attribute may be missing; the empty string stands for a missing one. */
  datatype Obj = Obj(form: string, size: string, color: string)

  datatype WorldState = WorldState(
    stacks: seq<seq<string>>,
    holding: Option<string>,
    arm: nat,
    objects: map<string, Obj>)

  /** The key of the floor, which is not an object in any column. */
  const Floor: string := "floor"

  /** The attributes the floor is given when it is looked up. */
  const FloorObj: Obj := Obj("floor", "floor", "floor")

  /** A key whose attributes can be looked up. */
  predicate Known(w: WorldState, k: string) {
    k == Floor || k in w.objects
  }

  function ObjectOf(w: WorldState, k: string): Obj
    requires Known(w, k)
  {
    if k == Floor then FloorObj else w.objects[k]
  }

  predicate Held(w: WorldState, k: string) {
    w.holding == Some(k)
  }

  /** Column `i` of the world, or nothing when `i` is out of range (as
      indexing a JavaScript array out of range gives `undefined`). */
  function StackAt(w: WorldState, i: int): Option<seq<string>> {
    if 0 <= i < |w.stacks| then Some(w.stacks[i]) else None
  }
}

=== FILE: world_graph.dfy ===
/** The blocks world as a graph for the search: a node is a world state and
    the action that produced it; its outgoing edges are the legal one-step
    moves of the arm (pick up, drop, move left, move right), each of cost
    1. States are immutable values, so a successor never shares anything
    with the state it came from. */
module WorldGraph {
  import opened Common
  import opened World
  import opened Interpreter
  import opened AStar

  /** A state in the search and the action that produced it. */
  datatype WorldNode = WorldNode(state: WorldState, action: string)

  const PickAction: string := "p"
  const DropAction: string := "d"
  const LeftAction: string := "l"
  const RightAction: string := "r"

  /** The column under the arm. */
  function ArmColumn(w: WorldState): seq<string>
    requires w.arm < |w.stacks|
  {
    w.stacks[w.arm]
  }

  // ---------------------------------------------------------------------
  // The four moves

  /** Picks up the top of the arm's column. */
  function PickUp(w: WorldState): (r: WorldState)
    requires w.arm < |w.stacks| && |ArmColumn(w)| > 0
    ensures r.holding == Some(Last(ArmColumn(w)))
    ensures |r.stacks| == |w.stacks| && r.stacks[w.arm] + [Last(ArmColumn(w))] == ArmColumn(w)
    ensures forall i :: 0 <= i < |w.stacks| && i != w.arm ==> r.stacks[i] == w.stacks[i]
    ensures r.arm == w.arm && r.objects == w.objects
  {
    var column := ArmColumn(w);
    w.(stacks := w.stacks[w.arm := column[..|column| - 1]], holding := Some(Last(column)))
  }

  /** Puts the held object on top of the arm's column. */
  function Drop(w: WorldState): (r: WorldState)
    requires w.arm < |w.stacks| && w.holding.Some?
    ensures r.holding == None
    ensures |r.stacks| == |w.stacks| && r.stacks[w.arm] == ArmColumn(w) + [w.holding.value]
    ensures forall i :: 0 <= i < |w.stacks| && i != w.arm ==> r.stacks[i] == w.stacks[i]
    ensures r.arm == w.arm && r.objects == w.objects
  {
    w.(stacks := w.stacks[w.arm := ArmColumn(w) + [w.holding.value]], holding := None)
  }

  function MoveLeft(w: WorldState): (r: WorldState)
    requires w.arm > 0
    ensures r.arm + 1 == w.arm
    ensures r.stacks == w.stacks && r.holding == w.holding && r.objects == w.objects
  {
    w.(arm := w.arm - 1)
  }

  function MoveRight(w: WorldState): (r: WorldState)
    ensures r.arm == w.arm + 1
    ensures r.stacks == w.stacks && r.holding == w.holding && r.objects == w.objects
  {
    w.(arm := w.arm + 1)
  }

  function PickUpEdge(node: WorldNode): (e: Edge<WorldNode>)
    requires node.state.arm < |node.state.stacks| && |ArmColumn(node.state)| > 0
  {
    Edge(node, WorldNode(PickUp(node.state), PickAction), 1)
  }

  function DropEdge(node: WorldNode): (e: Edge<WorldNode>)
    requires node.state.arm < |node.state.stacks| && node.state.holding.Some?
  {
    Edge(node, WorldNode(Drop(node.state), DropAction), 1)
  }

  function LeftMoveEdge(node: WorldNode): (e: Edge<WorldNode>)
    requires node.state.arm > 0
  {
    Edge(node, WorldNode(MoveLeft(node.state), LeftAction), 1)
  }

  function RightMoveEdge(node: WorldNode): (e: Edge<WorldNode>)
  {
    Edge(node, WorldNode(MoveRight(node.state), RightAction), 1)
  }

  // ---------------------------------------------------------------------
  // The successor generator

  /** The held object and the top of the arm's column have attributes,
      when both exist. */
  predicate DropKeysKnown(w: WorldState)
    requires w.arm < |w.stacks|
  {
    w.holding.Some? && |ArmColumn(w)| > 0 ==> Known(w, w.holding.value) && Known(w, Last(ArmColumn(w)))
  }

  /** May the held object go on or into the top of the arm's column? Only
      an unknown size makes the question fail. Into a box: a pyramid,
      plank or box strictly smaller than it, or a ball at most as large.
      Onto anything else: nothing goes on a ball, and no ball goes
      anywhere; otherwise the held object must be at most as large as the
      top, except that a box does not go on a pyramid of its own size nor
      a small box on a brick. */
  function CanDrop(w: WorldState): (r: Result<bool>)
    requires w.arm < |w.stacks| && w.holding.Some? && |ArmColumn(w)| > 0 && DropKeysKnown(w)
    ensures r.Err? ==> IsSizeError(r.msg)
    ensures Sized(w, w.holding.value) && Sized(w, Last(ArmColumn(w))) ==> r.Ok?
    ensures Last(ArmColumn(w)) == Floor ==> r == Ok(true)
    ensures Last(ArmColumn(w)) != Floor && ObjectOf(w, Last(ArmColumn(w))).form == "box" ==>
      var held, top := ObjectOf(w, w.holding.value), ObjectOf(w, Last(ArmColumn(w)));
      (r == Ok(true) <==>
        && held.size in Sizes && top.size in Sizes
        && (|| (held.form in {"pyramid", "plank", "box"} && SizeOf(w, w.holding.value) < SizeOf(w, Last(ArmColumn(w))))
            || (held.form == "ball" && SizeOf(w, w.holding.value) <= SizeOf(w, Last(ArmColumn(w))))))
    ensures Last(ArmColumn(w)) != Floor && ObjectOf(w, Last(ArmColumn(w))).form != "box" ==>
      var held, top := ObjectOf(w, w.holding.value), ObjectOf(w, Last(ArmColumn(w)));
      (r == Ok(true) <==>
        && held.form != "ball" && top.form != "ball"
        && held.size in Sizes && top.size in Sizes
        && SizeOf(w, w.holding.value) <= SizeOf(w, Last(ArmColumn(w)))
        && !(held.form == "box" && top.form == "pyramid" && held.size == top.size)
        && !(held.form == "box" && top.form == "brick" && held.size == "small"))
  {
    CanPlaceOnTopOrInside(w, w.holding.value, Last(ArmColumn(w)))
  }

  /** The drop move is legal: the column is empty or the held object may
      go on (or into) its top. */
  predicate DropAllowed(w: WorldState)
    requires w.arm < |w.stacks| && w.holding.Some? && DropKeysKnown(w)
  {
    |ArmColumn(w)| == 0 || CanDrop(w) == Ok(true)
  }

  /** Order of the actions in the generated list: pick or drop, then left,
      then right. */
  function ActionRank(a: string): int {
    if a == PickAction || a == DropAction then 0
    else if a == LeftAction then 1
    else if a == RightAction then 2
    else 3
  }

  predicate HasAction(edges: seq<Edge<WorldNode>>, a: string) {
    exists e :: e in edges && e.to.action == a
  }

  /** The edge-shaped facts every generated edge satisfies: it starts at
      `node`, costs 1, and leads to the state its action produces. */
  predicate MoveOf(node: WorldNode, e: Edge<WorldNode>) {
    && e.from == node && e.cost == 1
    && (|| (e.to.action == PickAction && node.state.arm < |node.state.stacks| && |ArmColumn(node.state)| > 0
            && node.state.holding.None? && e.to.state == PickUp(node.state))
        || (e.to.action == DropAction && node.state.arm < |node.state.stacks| && node.state.holding.Some?
            && e.to.state == Drop(node.state))
        || (e.to.action == LeftAction && node.state.arm > 0 && e.to.state == MoveLeft(node.state))
        || (e.to.action == RightAction && node.state.arm + 1 < |node.state.stacks|
            && e.to.state == MoveRight(node.state)))
  }

  /** The pick-up or drop move, if legal; only the placement check can
      fail. */
  function GripperEdges(node: WorldNode): (r: Result<seq<Edge<WorldNode>>>)
    requires node.state.arm < |node.state.stacks| && DropKeysKnown(node.state)
    ensures r.Err? <==> node.state.holding.Some? && |ArmColumn(node.state)| > 0 && CanDrop(node.state).Err?
    ensures r.Err? ==> IsSizeError(r.msg)
    ensures r.Ok? ==> |r.value| <= 1 && forall e :: e in r.value ==> MoveOf(node, e) && ActionRank(e.to.action) == 0
    ensures r.Ok? ==>
      (HasAction(r.value, PickAction) <==> node.state.holding.None? && |ArmColumn(node.state)| > 0)
    ensures r.Ok? ==>
      (HasAction(r.value, DropAction) <==> node.state.holding.Some? && DropAllowed(node.state))
  {
    var state := node.state;
    if state.holding.None? then
      if |ArmColumn(state)| > 0 then
        var e := PickUpEdge(node);
        assert HasAction([e], PickAction);
        Ok([e])
      else Ok([])
    else if |ArmColumn(state)| > 0 then
      var canDrop :- CanDrop(state);
      if canDrop then
        var e := DropEdge(node);
        assert HasAction([e], DropAction);
        Ok([e])
      else Ok([])
    else
      var e := DropEdge(node);
      assert HasAction([e], DropAction);
      Ok([e])
  }

  /** The arm moves: left when there is a column to the left, then right
      when there is one to the right. */
  function ArmEdges(node: WorldNode): (r: seq<Edge<WorldNode>>)
    ensures |r| <= 2 && forall e :: e in r ==> MoveOf(node, e)
    ensures forall i, j :: 0 <= i < j < |r| ==> ActionRank(r[i].to.action) < ActionRank(r[j].to.action)
    ensures forall e :: e in r ==> ActionRank(e.to.action) > 0
    ensures HasAction(r, LeftAction) <==> node.state.arm > 0
    ensures HasAction(r, RightAction) <==> node.state.arm < |node.state.stacks| - 1
    ensures !HasAction(r, PickAction) && !HasAction(r, DropAction)
  {
    var left := if node.state.arm > 0 then [LeftMoveEdge(node)] else [];
    var right := if node.state.arm < |node.state.stacks| - 1 then [RightMoveEdge(node)] else [];
    HasActionAppend(left, right, LeftAction);
    HasActionAppend(left, right, RightAction);
    HasActionAppend(left, right, PickAction);
    HasActionAppend(left, right, DropAction);
    assert HasAction(left, LeftAction) <==> node.state.arm > 0 by {
      if node.state.arm > 0 { assert left[0] in left; }
    }
    assert HasAction(right, RightAction) <==> node.state.arm < |node.state.stacks| - 1 by {
      if node.state.arm < |node.state.stacks| - 1 { assert right[0] in right; }
    }
    left + right
  }

  lemma HasActionAppend(a: seq<Edge<WorldNode>>, b: seq<Edge<WorldNode>>, act: string)
    ensures HasAction(a + b, act) <==> HasAction(a, act) || HasAction(b, act)
  {
    if HasAction(a + b, act) {
      var e :| e in a + b && e.to.action == act;
      assert e in a || e in b;
    }
    if HasAction(a, act) {
      var e :| e in a && e.to.action == act;
      assert e in a + b;
    }
    if HasAction(b, act) {
      var e :| e in b && e.to.action == act;
      assert e in a + b;
    }
  }

  /** Edges ranked 0, followed by edges in increasing rank above 0, are in
      increasing rank. */
  lemma RanksAppend(first: seq<Edge<WorldNode>>, rest: seq<Edge<WorldNode>>)
    requires |first| <= 1 && forall e :: e in first ==> ActionRank(e.to.action) == 0
    requires forall e :: e in rest ==> ActionRank(e.to.action) > 0
    requires forall i, j :: 0 <= i < j < |rest| ==> ActionRank(rest[i].to.action) < ActionRank(rest[j].to.action)
    ensures forall e :: e in first + rest ==> e in first || e in rest
    ensures forall i, j :: 0 <= i < j < |first + rest| ==>
      ActionRank((first + rest)[i].to.action) < ActionRank((first + rest)[j].to.action)
  {
    var edges := first + rest;
    forall i, j | 0 <= i < j < |edges|
      ensures ActionRank(edges[i].to.action) < ActionRank(edges[j].to.action)
    {
      if i >= |first| {
        assert edges[i] == rest[i - |first|] && edges[j] == rest[j - |first|];
      } else {
        assert edges[i] in first && edges[j] in rest;
      }
    }
  }

  /** The legal moves from `node`. Pick-up needs an empty gripper and a
      non-empty column; drop needs a held object and an empty column or a
      top it may rest on or in; left needs a column to the left and right
      one to the right. Each edge starts at `node`, costs 1, and leads to
      the state its move produces; pick or drop comes first, then left,
      then right. Only the placement check can fail, with its size
      error. */
  function OutgoingEdges(node: WorldNode): (r: Result<seq<Edge<WorldNode>>>)
    requires node.state.arm < |node.state.stacks| && DropKeysKnown(node.state)
    ensures r.Err? <==> node.state.holding.Some? && |ArmColumn(node.state)| > 0 && CanDrop(node.state).Err?
    ensures r.Err? ==> IsSizeError(r.msg)
    ensures r.Ok? ==> |r.value| <= 3
    ensures r.Ok? ==> forall e :: e in r.value ==> MoveOf(node, e)
    ensures r.Ok? ==> forall i, j :: 0 <= i < j < |r.value| ==> ActionRank(r.value[i].to.action) < ActionRank(r.value[j].to.action)
    ensures r.Ok? ==>
      (HasAction(r.value, PickAction) <==> node.state.holding.None? && |ArmColumn(node.state)| > 0)
    ensures r.Ok? ==>
      (HasAction(r.value, DropAction) <==> node.state.holding.Some? && DropAllowed(node.state))
    ensures r.Ok? ==> (HasAction(r.value, LeftAction) <==> node.state.arm > 0)
    ensures r.Ok? ==> (HasAction(r.value, RightAction) <==> node.state.arm < |node.state.stacks| - 1)
  {
    var first :- GripperEdges(node);
    CombinedEdges(node, first, ArmEdges(node));
    Ok(first + ArmEdges(node))
  }

  /** The gripper move followed by the arm moves keeps the facts of both
      lists and the rank order. */
  lemma CombinedEdges(node: WorldNode, first: seq<Edge<WorldNode>>, rest: seq<Edge<WorldNode>>)
    requires node.state.arm < |node.state.stacks| && DropKeysKnown(node.state)
    requires GripperEdges(node) == Ok(first) && rest == ArmEdges(node)
    ensures |first + rest| <= 3
    ensures forall e :: e in first + rest ==> MoveOf(node, e)
    ensures forall i, j :: 0 <= i < j < |first + rest| ==>
      ActionRank((first + rest)[i].to.action) < ActionRank((first + rest)[j].to.action)
    ensures HasAction(first + rest, PickAction) <==> node.state.holding.None? && |ArmColumn(node.state)| > 0
    ensures HasAction(first + rest, DropAction) <==> node.state.holding.Some? && DropAllowed(node.state)
    ensures HasAction(first + rest, LeftAction) <==> node.state.arm > 0
    ensures HasAction(first + rest, RightAction) <==> node.state.arm < |node.state.stacks| - 1
  {
    HasActionAppend(first, rest, PickAction);
    HasActionAppend(first, rest, DropAction);
    HasActionAppend(first, rest, LeftAction);
    HasActionAppend(first, rest, RightAction);
    assert !HasAction(first, LeftAction) && !HasAction(first, RightAction);
    RanksAppend(first, rest);
  }

  /** Two nodes compare equal (0) exactly when their states are equal,
      whatever actions produced them; otherwise the result is 1. */
  function CompareNodes(a: WorldNode, b: WorldNode): (r: int)
    ensures r == 0 || r == 1
    ensures r == 0 <==> a.state == b.state
  {
    if a.state == b.state then 0 else 1
  }

  /** Comparison is an equivalence: reflexive, symmetric and transitive,
      and blind to the action. */
  lemma CompareNodesIsEquivalence(a: WorldNode, b: WorldNode, c: WorldNode, act: string)
    ensures CompareNodes(a, a) == 0
    ensures CompareNodes(a, b) == CompareNodes(b, a)
    ensures CompareNodes(a, b) == 0 && CompareNodes(b, c) == 0 ==> CompareNodes(a, c) == 0
    ensures CompareNodes(a, WorldNode(a.state, act)) == 0
  {
  }

  // ---------------------------------------------------------------------
  // Properties of the moves

  /** The keys in the world, counted with multiplicity. */
  function Inventory(w: WorldState): multiset<string> {
    multiset(AllRelevantKeys(w))
  }

  /** Picking up moves the top key from the column to the gripper. */
  lemma PickUpConserves(w: WorldState)
    requires w.arm < |w.stacks| && |ArmColumn(w)| > 0 && w.holding.None?
    ensures Inventory(PickUp(w)) == Inventory(w)
  {
    var column := ArmColumn(w);
    var rest := column[..|column| - 1];
    var top := Last(column);
    var r := PickUp(w);
    assert r.stacks == w.stacks[w.arm := rest];
    FlattenUpdate(w.stacks, w.arm, rest);
    assert column == rest + [top];
    var after, before, m := multiset(Flatten(r.stacks)), multiset(Flatten(w.stacks)), multiset(rest);
    assert multiset(column) == m + multiset{top};
    assert after + (m + multiset{top}) == before + m;
    calc {
      Inventory(r);
      after + multiset{top};
      (after + (m + multiset{top})) - m;
      (before + m) - m;
      before;
      Inventory(w);
    }
  }

  /** Dropping moves the held key from the gripper to the column. */
  lemma DropConserves(w: WorldState)
    requires w.arm < |w.stacks| && w.holding.Some?
    ensures Inventory(Drop(w)) == Inventory(w)
  {
    var column := ArmColumn(w);
    var held := w.holding.value;
    var r := Drop(w);
    assert r.stacks == w.stacks[w.arm := column + [held]];
    FlattenUpdate(w.stacks, w.arm, column + [held]);
    var after, before, m := multiset(Flatten(r.stacks)), multiset(Flatten(w.stacks)), multiset(column);
    assert multiset(column + [held]) == m + multiset{held};
    assert after + m == before + (m + multiset{held});
    calc {
      Inventory(r);
      after;
      (after + m) - m;
      (before + (m + multiset{held})) - m;
      before + multiset{held};
      Inventory(w);
    }
  }

  /** A single move keeps the keys (columns' and gripper's, with
      multiplicity), the number of columns, the attributes, and the arm
      within the columns. */
  lemma MoveConserves(node: WorldNode, e: Edge<WorldNode>)
    requires node.state.arm < |node.state.stacks| && MoveOf(node, e)
    ensures Inventory(e.to.state) == Inventory(node.state)
    ensures |e.to.state.stacks| == |node.state.stacks|
    ensures e.to.state.objects == node.state.objects
    ensures e.to.state.arm < |e.to.state.stacks|
  {
    var w := node.state;
    if e.to.action == PickAction {
      assert e.to.state == PickUp(w);
      PickUpConserves(w);
    } else if e.to.action == DropAction {
      assert e.to.state == Drop(w);
      DropConserves(w);
    } else if e.to.action == LeftAction {
      assert e.to.state == MoveLeft(w);
    } else {
      assert e.to.state == MoveRight(w);
    }
  }

  /** Every successor conserves what a single move conserves. */
  lemma SuccessorsConserve(node: WorldNode)
    requires node.state.arm < |node.state.stacks| && DropKeysKnown(node.state)
    requires OutgoingEdges(node).Ok?
    ensures forall e :: e in OutgoingEdges(node).value ==>
      && Inventory(e.to.state) == Inventory(node.state)
      && |e.to.state.stacks| == |node.state.stacks|
      && e.to.state.objects == node.state.objects
      && e.to.state.arm < |e.to.state.stacks|
  {
    forall e | e in OutgoingEdges(node).value
      ensures Inventory(e.to.state) == Inventory(node.state)
      ensures |e.to.state.stacks| == |node.state.stacks|
      ensures e.to.state.objects == node.state.objects
      ensures e.to.state.arm < |e.to.state.stacks|
    {
      MoveConserves(node, e);
    }
  }

  /** Dropping what was just picked up restores the world. */
  lemma PickUpThenDrop(w: WorldState)
    requires w.arm < |w.stacks| && |ArmColumn(w)| > 0 && w.holding.None?
    ensures Drop(PickUp(w)) == w
  {
    var column := ArmColumn(w);
    assert column[..|column| - 1] + [Last(column)] == column;
    assert Drop(PickUp(w)).stacks == w.stacks;
  }

  /** Picking up what was just dropped restores the world. */
  lemma DropThenPickUp(w: WorldState)
    requires w.arm < |w.stacks| && w.holding.Some?
    ensures PickUp(Drop(w)) == w
  {
    var column := ArmColumn(w) + [w.holding.value];
    assert column[..|column| - 1] == ArmColumn(w);
    assert PickUp(Drop(w)).stacks == w.stacks;
  }

  /** Moving left undoes moving right, and the other way round. */
  lemma MovesUndoEachOther(w: WorldState)
    ensures MoveLeft(MoveRight(w)) == w
    ensures w.arm > 0 ==> MoveRight(MoveLeft(w)) == w
  {
  }

  // ---------------------------------------------------------------------
  // Physically valid worlds stay valid

  /** `k` has attributes, and its size is one of the known sizes. */
  predicate Sized(w: WorldState, k: string) {
    Known(w, k) && ObjectOf(w, k).size in Sizes
  }

  /** Every key in a column or in the gripper is sized. */
  predicate KeysSized(w: WorldState) {
    && (forall i, j :: 0 <= i < |w.stacks| && 0 <= j < |w.stacks[i]| ==> Sized(w, w.stacks[i][j]))
    && (w.holding.Some? ==> Sized(w, w.holding.value))
  }

  /** Every object rests on one it may rest on or in. */
  predicate Supported(w: WorldState)
    requires KeysSized(w)
  {
    forall i, j :: 0 <= i < |w.stacks| && 0 < j < |w.stacks[i]| ==>
      CanPlaceOnTopOrInside(w, w.stacks[i][j], w.stacks[i][j - 1]) == Ok(true)
  }

  /** The arm is over a column, every key has attributes with a known
      size, and every object rests on one it may rest on or in. */
  predicate ValidWorld(w: WorldState) {
    w.arm < |w.stacks| && KeysSized(w) && Supported(w)
  }

  /** The placement check cannot fail between objects of known sizes. */
  lemma PlacementDecided(w: WorldState, key1: string, key2: string)
    requires Sized(w, key1) && Sized(w, key2)
    ensures CanPlaceOnTopOrInside(w, key1, key2).Ok?
  {
  }

  /** In a valid world the successor generator succeeds, and every
      successor is again a valid world. */
  lemma SuccessorsStayValid(node: WorldNode)
    requires ValidWorld(node.state)
    ensures DropKeysKnown(node.state) && OutgoingEdges(node).Ok?
    ensures forall e :: e in OutgoingEdges(node).value ==> ValidWorld(e.to.state)
  {
    var w := node.state;
    if w.holding.Some? && |ArmColumn(w)| > 0 {
      assert Sized(w, Last(ArmColumn(w))) by {
        assert Last(ArmColumn(w)) == w.stacks[w.arm][|w.stacks[w.arm]| - 1];
      }
      PlacementDecided(w, w.holding.value, Last(ArmColumn(w)));
    }
    forall e | e in OutgoingEdges(node).value
      ensures ValidWorld(e.to.state)
    {
      assert MoveOf(node, e);
      if e.to.action == PickAction {
        assert HasAction(OutgoingEdges(node).value, PickAction);
        PickUpStaysValid(w);
      } else if e.to.action == DropAction {
        assert HasAction(OutgoingEdges(node).value, DropAction);
        DropStaysValid(w);
      } else if e.to.action == LeftAction {
        ArmMoveStaysValid(w, MoveLeft(w));
      } else {
        assert HasAction(OutgoingEdges(node).value, RightAction);
        ArmMoveStaysValid(w, MoveRight(w));
      }
    }
  }

  /** Moving the arm to another column keeps a world valid. */
  lemma ArmMoveStaysValid(w: WorldState, w': WorldState)
    requires ValidWorld(w)
    requires w'.stacks == w.stacks && w'.holding == w.holding && w'.objects == w.objects && w'.arm < |w'.stacks|
    ensures ValidWorld(w')
  {
    SameObjectsSameChecks(w, w');
  }

  /** Two worlds with the same attributes agree on every key's attributes
      and on every placement check. */
  lemma SameObjectsSameChecks(w: WorldState, w': WorldState)
    requires w'.objects == w.objects
    ensures forall k :: Sized(w', k) == Sized(w, k)
    ensures forall k1, k2 :: Known(w, k1) && Known(w, k2) ==>
      CanPlaceOnTopOrInside(w', k1, k2) == CanPlaceOnTopOrInside(w, k1, k2)
  {
    assert forall k :: Known(w', k) == Known(w, k);
    assert forall k :: Known(w, k) ==> ObjectOf(w', k) == ObjectOf(w, k);
  }

  lemma PickUpStaysSized(w: WorldState)
    requires w.arm < |w.stacks| && KeysSized(w) && |ArmColumn(w)| > 0 && w.holding.None?
    ensures KeysSized(PickUp(w))
  {
    var r := PickUp(w);
    SameObjectsSameChecks(w, r);
    assert forall i, j :: 0 <= i < |r.stacks| && 0 <= j < |r.stacks[i]| ==> r.stacks[i][j] == w.stacks[i][j];
    assert Last(ArmColumn(w)) == w.stacks[w.arm][|ArmColumn(w)| - 1];
  }

  lemma PickUpStaysValid(w: WorldState)
    requires ValidWorld(w) && |ArmColumn(w)| > 0 && w.holding.None?
    ensures ValidWorld(PickUp(w))
  {
    var r := PickUp(w);
    PickUpStaysSized(w);
    SameObjectsSameChecks(w, r);
    forall i, j | 0 <= i < |r.stacks| && 0 < j < |r.stacks[i]|
      ensures CanPlaceOnTopOrInside(r, r.stacks[i][j], r.stacks[i][j - 1]) == Ok(true)
    {
      assert r.stacks[i][j] == w.stacks[i][j] && r.stacks[i][j - 1] == w.stacks[i][j - 1];
    }
  }

  lemma DropStaysSized(w: WorldState)
    requires w.arm < |w.stacks| && KeysSized(w) && w.holding.Some?
    ensures KeysSized(Drop(w))
  {
    var r := Drop(w);
    SameObjectsSameChecks(w, r);
    forall i, j | 0 <= i < |r.stacks| && 0 <= j < |r.stacks[i]|
      ensures Sized(r, r.stacks[i][j])
    {
      if i == w.arm && j == |ArmColumn(w)| {
        assert r.stacks[i][j] == w.holding.value;
      } else {
        assert r.stacks[i][j] == w.stacks[i][j];
      }
    }
  }

  lemma DropStaysValid(w: WorldState)
    requires ValidWorld(w) && w.holding.Some?
    requires |ArmColumn(w)| == 0 || CanDrop(w) == Ok(true)
    ensures ValidWorld(Drop(w))
  {
    var r := Drop(w);
    var column := ArmColumn(w);
    DropStaysSized(w);
    SameObjectsSameChecks(w, r);
    forall i, j | 0 <= i < |r.stacks| && 0 < j < |r.stacks[i]|
      ensures CanPlaceOnTopOrInside(r, r.stacks[i][j], r.stacks[i][j - 1]) == Ok(true)
    {
      if i == w.arm && j == |column| {
        assert r.stacks[i][j] == w.holding.value;
        assert r.stacks[i][j - 1] == Last(column);
      } else {
        assert r.stacks[i][j] == w.stacks[i][j] && r.stacks[i][j - 1] == w.stacks[i][j - 1];
      }
    }
  }
}
